=== FILE: README.md ===
# Spreadsheet dependency engine, in Dafny

This project models the core of an in-memory spreadsheet server. A sheet has an id, an ordered schema of `(name, type)` columns and a store of cells keyed by the text `column + "," + row`. A cell holds either a literal value or a lookup of one other cell, written `lookup(<column>, <row>)`.

`setCellValue` runs a fixed pipeline:

1. Find the sheet, then the column.
2. Resolve the value. Lookup text is parsed and its target checked: the referenced column must exist and have exactly the same type text. The cell then caches the referenced cell's current value. Any other value is validated against the column type.
3. Reject a lookup that would close a reference cycle: a self-reference, or a chain leading back to the cell.
4. Store the cell. This is the only mutation.
5. Propagate the new value to every cell that depends on it, directly or through other lookups.

`convertSheetToCsv` writes a header line, then one line per populated row index in ascending order.

Modules, one per file:

| file | module | models |
|---|---|---|
| `wrappers.dfy` | `Wrappers` | `Option` for Java's nullable returns; `Result`/`Outcome` for thrown exceptions |
| `text.dfy` | `Text` | the pieces of Java text handling used: `Integer.toString`, `Integer.parseInt`, ASCII `toLowerCase`, `String.join`, `startsWith` |
| `cell.dfy` | `Cells` | `Cell`, its value slot (an Integer is a 32-bit int; any other Number is a real) and its lookup descriptor |
| `sheet.dfy` | `Sheets` | `Sheet`, the cell key, `addCell`/`getCell`/`getColumnByName` |
| `errors.dfy` | `Errors` | the distinct rejection reasons |
| `validation.dfy` | `Validation` | `validateValueType` |
| `lookup_syntax.dfy` | `LookupSyntax` | the lookup regular expression and a parser proved equivalent to it |
| `ref_graph.dfy` | `RefGraph` | the reference graph of a store (one edge per lookup cell), reachability, acyclicity |
| `cycles.dfy` | `Cycles` | `checkForCycles`, `checkPathForCycles` |
| `propagation.dfy` | `Propagation` | `updateDependentCells` |
| `service.dfy` | `Service` | the sheet registry, `createSheet(WithId)`, `getSheet`, `processLookupFunction`, `setCellValue` and the store invariant it keeps |
| `csv.dfy` | `Csv` | `convertSheetToCsv` |
| `csv_example.dfy` | `CsvExample` | the CSV conversion test's sheet, rendered |

Central results:

- **Propagation** (`Propagation.UpdateDependentsCorrect`). On a well-formed, acyclic store, propagation from a key X does exactly one thing: it sets every key whose reference chain reaches X to X's value. It visits exactly the tree below X. This holds for every iteration order of the hash map, so the result does not depend on that order.
- **Cycle detection** (`Cycles.CheckForCyclesExact`). A lookup is rejected exactly when its target is its own key, or when its target's chain reaches its own key. Committing a cell that passed keeps the graph acyclic (`Cycles.CommitKeepsAcyclic`).
- **Store invariant** (`Service.SetCellValueCorrect`). Every write keeps three properties:
  - every cell sits under its own key;
  - the reference graph is acyclic;
  - every lookup cell holds the value stored at the coordinate it references, or null when that cell is absent.

  A successful write stores the returned cell and gives its dependents its value. Every other cell is unchanged. A rejected write changes nothing.
- **Lookup grammar** (`LookupSyntax.ParseLookupExact`). The hand-written parser accepts exactly the texts that match `lookup\(\s*([A-Za-z]+)\s*,\s*(\d+)\s*\)`, with the same groups.

Where a Java library call cannot be expressed, it is a parameter:

- `order: seq<string>` is the iteration order of the store's `HashMap`. The correctness lemmas require only that it lists every key once.
- `isDouble: string -> bool` is the verdict of `Double.parseDouble`.
- `showNum: real -> string` gives the text written for a number that is not an Integer, as a function of its `doubleValue()`.
- `freshId` is the random UUID of `createSheet`.

`Column` is used with a name and a type text. Its source file, `Column.java`, is not part of this model.

## Model

| member | source | states |
|---|---|---|
| Cells.NewCell | src/main/java/org/example/model/Cell.java:24-28 | the constructed cell holds exactly the given column, row and value, carries no lookup descriptor and so is not a lookup cell |
| Cells.SetValue | src/main/java/org/example/model/Cell.java:50-52 | only the value changes: coordinates and the whole lookup descriptor are kept, so lookup mode and the presence of a reference are unchanged |
| Sheets.CellKeyInjective | src/main/java/org/example/model/Sheet.java:58-60 | two coordinates have the same key exactly when they have the same column and row, for every column name (the row's decimal text never holds a comma) |
| Sheets.NewSheet | src/main/java/org/example/model/Sheet.java:18-22 | a new sheet keeps the given id and columns, no coordinate holds a cell, and the empty store is well-formed |
| Sheets.AddCell | src/main/java/org/example/model/Sheet.java:48-56 | the key set grows by exactly the cell's key; getCell at the cell's coordinate returns the cell; every other coordinate reads as before |
| Sheets.AddCellWellFormed | src/main/java/org/example/model/Sheet.java:48-51 | upserting under the cell's own key keeps every entry under its own coordinate's key |
| Sheets.ColumnByName | src/main/java/org/example/model/Sheet.java:62-67 | None exactly when no column has the name; otherwise a column with that name such that no earlier column has it (the first match) |
| Text.IntToStringInjective | src/main/java/org/example/model/Sheet.java:58-60 | the decimal text of the row in a key determines the row: equal texts exactly for equal integers |
| Text.ParseIntOfIntToString | src/main/java/org/example/service/SpreadsheetService.java:126-127 | Integer.parseInt reads back Integer.toString for every 32-bit int |
| Text.ToLowerAscii | src/main/java/org/example/service/SpreadsheetService.java:182 | lower-casing keeps the length, maps each upper-case ASCII letter to its lower-case letter and keeps every other character |
| Validation.ValidateValueType | src/main/java/org/example/service/SpreadsheetService.java:174-244 | null always passes; with the lower-cased type: "boolean" passes exactly Booleans, "int" exactly values denoting a 32-bit int (an Integer, a whole in-range Number, parseable text), "double" exactly Numbers and text Double.parseDouble accepts, "string" everything; any other type fails with the unsupported-type error; failures are only the four type errors |
| LookupSyntax.ParseLookupSound | src/main/java/org/example/service/SpreadsheetService.java:118-124 | every pair of groups the parser returns is a full match of the lookup pattern with those groups |
| LookupSyntax.ParseLookupComplete | src/main/java/org/example/service/SpreadsheetService.java:118-124 | every full match of the lookup pattern is found by the parser with the same groups |
| LookupSyntax.ParseLookupExact | src/main/java/org/example/service/SpreadsheetService.java:118-129 | the parser returns given groups exactly when the whole text matches the pattern with those groups |
| Service.LookupTarget | src/main/java/org/example/service/SpreadsheetService.java:118-127 | a lookup text yields a target only if it starts with `lookup(`; its failures are only the format error and the row-out-of-range error |
| Service.LookupTargetSpec | src/main/java/org/example/service/SpreadsheetService.java:118-127 | the format error occurs exactly when the text matches the pattern for no groups; for a match, the target is the column group and the parsed row, and the range error occurs exactly when the row digits do not fit an int; the target row is never negative |
| Service.ProcessLookup | src/main/java/org/example/service/SpreadsheetService.java:113-169 | a text without a target fails as LookupTarget does; otherwise it fails with ReferencedColumnNotFound exactly when no column has the referenced name, and with LookupTypeMismatch exactly when that column's type text differs from the current column's; on success the cell keeps its coordinate, carries the text and the target, and holds the value stored at the target (null when absent) |
| Service.CreateSheet | src/main/java/org/example/service/SpreadsheetService.java:24-31 | the new sheet has the fresh id, the columns and an empty store, is registered under that id, and every other registered sheet is kept |
| Service.CreateSheetWithId | src/main/java/org/example/service/SpreadsheetService.java:36-46 | fails exactly when the id is taken, with the duplicate-id error and an unchanged registry; otherwise registers an empty sheet with that id and columns, keeping every other sheet |
| Service.GetSheet | src/main/java/org/example/service/SpreadsheetService.java:51-60 | None exactly for an unregistered id, otherwise the registered sheet |
| Service.CreateThenGet | src/main/java/org/example/service/SpreadsheetService.java:36-60 | a sheet created under a free id is what getSheet returns for it, and creating it again under that id fails as a duplicate |
| Service.PrepareCell | src/main/java/org/example/service/SpreadsheetService.java:80-91 | a non-lookup value is accepted exactly when it passes type validation, as a plain cell holding it, and otherwise fails with a type error; an accepted lookup text gives a lookup cell carrying that text; a prepared lookup cell has a reference and holds the referenced value |
| Service.SetCellValue | src/main/java/org/example/service/SpreadsheetService.java:65-108 | a rejected write leaves the registry unchanged; SheetNotFound exactly for an unknown sheet, ColumnNotFound exactly for an unknown column; on success only the written sheet changes, it keeps its id and columns, its key set gains the written key, and the returned cell is the one now stored at that coordinate |
| Service.SetCellValueResult | src/main/java/org/example/service/SpreadsheetService.java:80-107 | a written lookup returns a lookup cell holding the value its target had before the write; a written literal returns a plain cell holding the value, and is accepted exactly when it passes type validation |
| Service.SetCellValueCorrect | src/main/java/org/example/service/SpreadsheetService.java:65-108 | every write keeps the registry invariant (well-formed, acyclic, every lookup cell holding its target's value); after a successful write the store is the old one with the returned cell at its key and every transitive dependent holding its value |
| Service.CommitCorrect | src/main/java/org/example/service/SpreadsheetService.java:99-105 | storing a checked cell and propagating gives the old store with the cell at its key and its transitive dependents holding its value, and keeps the invariant |
| Service.LiteralWriteIdempotent | src/main/java/org/example/service/SpreadsheetService.java:65-108 | writing the same literal to the same coordinate twice gives the same result and registry as writing it once, whether the first write succeeded or was rejected and whatever iteration order each write sees |
| Service.LookupWriteOutcome | src/main/java/org/example/service/SpreadsheetService.java:93-97 | a resolved lookup write fails as a self-reference exactly when it names its own coordinate, as a cycle exactly when the named cell's chain leads back to the written coordinate, and succeeds exactly when neither holds |
| Service.CreateSheetKeepsInv | src/main/java/org/example/service/SpreadsheetService.java:24-46 | registering a new sheet keeps the registry invariant |
| Service.FreshAfterWrite | src/main/java/org/example/service/SpreadsheetService.java:321-358 | after a write and its propagation, every lookup cell holds the value stored at the coordinate it references |
| Cycles.CheckPath | src/main/java/org/example/service/SpreadsheetService.java:282-316 | arriving at the target fails with the cycle error; at an absent or literal cell the walk fails exactly when that is the target; the only failures are the cycle error and a missing descriptor |
| Cycles.CheckPathStopsAtOtherCycle | src/main/java/org/example/service/SpreadsheetService.java:282-316 | on any store, a walk from a key that lies on a reference cycle of any length which never reaches the target passes, whatever was visited before: it stops when it comes round to a visited key |
| Cycles.TwoCellCycleWalk | src/main/java/org/example/service/SpreadsheetService.java:300-306 | two lookup cells naming each other form a cycle that a later walk for a third coordinate enters and leaves without error |
| Cycles.CheckPathExact | src/main/java/org/example/service/SpreadsheetService.java:282-316 | on a well-formed acyclic store, the walk fails exactly when the current key's chain reaches the target |
| Cycles.CheckPathWalkExact | src/main/java/org/example/service/SpreadsheetService.java:282-316 | on every well-formed store, cyclic or not, a walk whose path keys each get to the current key without passing the target fails exactly when the current key's chain reaches the target; a key met again lies on a cycle avoiding the target, where passing is right |
| Cycles.ArbitraryPathNeedsAcyclic | src/main/java/org/example/service/SpreadsheetService.java:300-306 | on a two-cell cycle through the target, a path set that merely reaches the current key makes the walk pass although the target is reachable, so such path sets need an acyclic store |
| Cycles.CheckForCycles | src/main/java/org/example/service/SpreadsheetService.java:250-277 | literal cells pass; the self-reference error occurs exactly for a lookup naming its own coordinate; the only failures are the two cycle errors and a missing descriptor |
| Cycles.CheckForCyclesExact | src/main/java/org/example/service/SpreadsheetService.java:250-277 | on every well-formed store, acyclic or not, the check gives the self-reference error exactly for the cell's own key, the cycle error exactly when the target's chain reaches the cell's key, and passes otherwise |
| Cycles.CommitKeepsAcyclic | src/main/java/org/example/service/SpreadsheetService.java:93-100 | storing a cell that passed the check keeps the reference graph acyclic |
| Propagation.UpdateDependents | src/main/java/org/example/service/SpreadsheetService.java:321-358 | only values change (keys, coordinates and descriptors are kept); the visited set only grows and gains the start key; an already visited start key leaves everything as it was |
| Propagation.Scan | src/main/java/org/example/service/SpreadsheetService.java:334-355 | the scan over the rest of the iteration order changes only values and only grows the visited set |
| Propagation.UpdateDependentsCorrect | src/main/java/org/example/service/SpreadsheetService.java:321-358 | on a well-formed acyclic store, starting from an unvisited tree, propagation sets exactly the keys whose chain reaches the start key to its value and visits exactly that tree |
| Propagation.UpdateDependentsOrderIndependent | src/main/java/org/example/service/SpreadsheetService.java:336 | on a well-formed acyclic store, propagation from a stored coordinate gives the same store for any two iteration orders of the store |
| Propagation.DependentsBySubFrom | src/main/java/org/example/service/SpreadsheetService.java:336-352 | on an acyclic reference graph and for any iteration order listing every lookup key, the union of the trees below the cells that reference a key is exactly the set of keys whose chain reaches it |
| Csv.InsertSorted | src/main/java/org/example/service/SpreadsheetService.java:382-385 | adding to the TreeSet keeps it strictly ascending and its elements are the old ones plus the new |
| Csv.CsvRows | src/main/java/org/example/service/SpreadsheetService.java:382-388 | the rows written are strictly ascending and are exactly the row indices holding a cell |
| Csv.CsvOrderIndependent | src/main/java/org/example/service/SpreadsheetService.java:366-418 | the CSV text is the same for every iteration order of the store |
| Csv.CsvStartsWithHeader | src/main/java/org/example/service/SpreadsheetService.java:371-379 | the text starts with `Row,`, the column names joined by commas, and a line break |
| Csv.CsvLineCount | src/main/java/org/example/service/SpreadsheetService.java:366-418 | when no column name or field holds a line break, the text has one line break per line: one for the header and one per populated row index |
| Csv.RenderQuotesComma | src/main/java/org/example/service/SpreadsheetService.java:401-405 | a string holding a comma is written between double quotes, and a string without one is written exactly as it is |
| Csv.FieldEmptyUnlessValue | src/main/java/org/example/service/SpreadsheetService.java:396-405 | when no cell is stored at the coordinate or its value is null the field is empty; otherwise it is the rendering of the stored value |
| Csv.RenderStringRoundTrip | src/main/java/org/example/service/SpreadsheetService.java:399-405 | a string field is written unchanged unless it holds a comma, and stripping the added quotes gives the string back |
| CsvExample.Example | src/test/java/org/example/service/SpreadsheetServiceTest.java:235-272 | the test's sheet renders, for every iteration order, as `Row,A,B,C`, `1,Hello,42,true`, `3,World,99,` and `5,"Hello, World",,`, each line ending in a line break |
| Service.LiteralWriteUpserts | src/main/java/org/example/service/SpreadsheetService.java:65-108 | writing a valid literal into a registered sheet with no lookup cell returns the plain cell, stores exactly it at its key, changes nothing else, and leaves the sheet without lookup cells |
| CsvExample.ExampleBuiltByService | src/test/java/org/example/service/SpreadsheetServiceTest.java:242-254 | createSheet with the three columns followed by the test's six setCellValue calls yields exactly the example store, for every fresh id and every iteration order at each write |
| CsvExample.ExampleRows | src/test/java/org/example/service/SpreadsheetServiceTest.java:262-263 | the test's sheet has exactly the data rows 1, 3 and 5, in that order |

## Left out

- The HTTP controller, logging, the Jackson annotations and the Spring wiring: they are transport and plumbing.
- Concurrency of the `ConcurrentHashMap` registry: the registry is a plain map passed in and returned.
- `createSheet`'s UUID: the fresh id is a parameter, so a collision with an existing id overwrites, as `put` would.
- The store's iteration order: it is a parameter. The propagation and CSV results hold for every order that lists each key once.
- `Double.parseDouble` and the text written for a non-Integer number are parameters, not models (`isDouble`, `showNum`). NaN and the infinities are not values of the model; a non-Integer Number is carried by its `doubleValue()` as a real.
- Cells.Value: only null, Boolean, Integer, other Number and String values are represented. The controller hands any decoded JSON value to `setCellValue`, so a JSON array or object arrives as a List or Map. A "string" column accepts it, and the CSV writes its `toString()` without quotes, because only a String holding a comma is quoted. A List `[1, 2]` thus gives the field `[1, 2]`, whose comma shifts every later field of that line. The model cannot write such a value, so its CSV results say nothing about it.
- Csv.Render: a Long and a Double with the same `doubleValue()` are one `Num` value, so they render the same, while Java prints them differently (Long 3000000000 as `3000000000`, Double 3.0E9 as `3.0E9`). The CSV text of non-Integer numbers is therefore modelled only up to that merge.
- `Integer.parseInt` and the regex `\d` recognise ASCII digits only. Java's regex `\d` is ASCII by default; `parseInt` also accepts other Unicode digits, which the model rejects.
- Text.ToLowerAscii: lower-cases ASCII letters only and ignores the default locale. Java's `toLowerCase()` also lower-cases non-ASCII letters, and under a Turkish or Azeri default locale it turns `INT` into `ınt` (dotless i), which Java then rejects as an unsupported type; the model gives `int` and accepts it.
- Propagation.DependsOn: a stored lookup cell whose referenced column matches but whose referenced row is null would throw a NullPointerException in Java; the model treats it as a non-match. Such a cell cannot arise through `setCellValue`, and the well-formed invariant excludes it.
- Cycles.CheckPathExact: exactness for path sets that merely reach the current key is stated for acyclic stores only, since on a cyclic store it is false (Cycles.ArbitraryPathNeedsAcyclic). For the path sets the walk actually builds, Cycles.CheckPathWalkExact states exactness on every well-formed store.
- Service.SetCellValueCorrect: the Java cycle walk and propagation recurse once per link of a reference chain with no depth bound, and a StackOverflowError on a very long chain is not modelled. In the cycle check it would reject a write the model accepts; in propagation it would strike after the cell is stored and leave dependents stale, breaking the freshness part of the invariant.
- Service.SetCellValueCorrect: the iteration order must list the keys of the store after the upsert; the model does not derive it from a hash function.
- A null or absent column type text would throw in Java; the model's type text is always present.

=== FILE: cell.dfy ===
/**
  The cell record: a coordinate, a value slot and a lookup descriptor stored beside the value.
  Whether a cell is a lookup cell is decided by the descriptor's function text alone.
 */
module Cells {
  import opened Wrappers
  import opened Text

  /**
    The dynamically typed value slot (`Object` in Java), restricted to the values JSON scalars
    decode to; lists and maps are not represented.
    `Int` is a java.lang.Integer, so it stays inside the 32-bit range; `Num` is any other
    java.lang.Number, carried by its doubleValue(); NaN and the infinities are not represented.
   */
  datatype Value =
    | Null
    | Bool(b: bool)
    | Int(i: Int32)
    | Num(x: real)
    | Str(s: string)

  datatype Cell = Cell(
    column: string,
    row: int,
    value: Value,
    lookupFunction: Option<string>,
    referencedColumn: Option<string>,
    referencedRow: Option<int>)

  /** A cell is a lookup cell exactly when its lookup function text is present and non-empty. */
  predicate IsLookup(c: Cell) {
    c.lookupFunction.Some? && |c.lookupFunction.value| > 0
  }

  /** A lookup cell whose referenced coordinates are both present. */
  predicate HasReference(c: Cell) {
    IsLookup(c) && c.referencedColumn.Some? && c.referencedRow.Some?
  }

  /** `new Cell(column, row, value)`: a literal cell with no lookup descriptor. */
  function NewCell(column: string, row: int, value: Value): (c: Cell)
    ensures c.column == column && c.row == row && c.value == value
    ensures c.lookupFunction.None? && c.referencedColumn.None? && c.referencedRow.None?
    ensures !IsLookup(c)
  {
    Cell(column, row, value, None, None, None)
  }

  /** `setValue`: replaces the value slot; coordinates and descriptor stay as they were. */
  function SetValue(c: Cell, v: Value): (r: Cell)
    ensures r.value == v
    ensures r.column == c.column && r.row == c.row
    ensures r.lookupFunction == c.lookupFunction
    ensures r.referencedColumn == c.referencedColumn && r.referencedRow == c.referencedRow
    ensures IsLookup(r) == IsLookup(c) && HasReference(r) == HasReference(c)
  {
    c.(value := v)
  }
}

=== FILE: csv.dfy ===
/**
  `convertSheetToCsv`: a header line `Row,` followed by the column names, then one line per
  distinct row index holding a cell, in ascending order. Each data line starts with the row index
  and has one field per schema column: empty for an absent cell or a null value, the value's text
  otherwise, wrapped in double quotes when it is a string containing a comma.
 */
module Csv {
  import opened Text
  import opened Cells
  import opened Sheets

  predicate StrictlyAscending(s: seq<int>) {
    forall i, j :: 0 <= i < j < |s| ==> s[i] < s[j]
  }

  /** `TreeSet.add`, on the ascending sequence of the set's elements. */
  function InsertSorted(s: seq<int>, x: int): (r: seq<int>)
    requires StrictlyAscending(s)
    ensures StrictlyAscending(r)
    ensures forall y :: y in r <==> y in s || y == x
  {
    if s == [] then [x]
    else if x < s[0] then
      AboveHead(s);
      ConsAscending(x, s);
      [x] + s
    else if x == s[0] then s
    else
      var tail := InsertSorted(s[1..], x);
      AboveHead(s);
      ConsAscending(s[0], tail);
      [s[0]] + tail
  }

  /** Every element after the head of an ascending sequence is above the head. */
  lemma {:induction false} AboveHead(s: seq<int>)
    requires StrictlyAscending(s) && s != []
    ensures forall y :: y in s[1..] ==> s[0] < y
    ensures forall y :: y in s ==> s[0] <= y
  {
  }

  /** Putting an element below all others in front of an ascending sequence keeps it ascending. */
  lemma {:induction false} ConsAscending(h: int, tail: seq<int>)
    requires StrictlyAscending(tail)
    requires forall y :: y in tail ==> h < y
    ensures StrictlyAscending([h] + tail)
  {
    var r := [h] + tail;
    assert forall j :: 1 <= j < |r| ==> r[j] == tail[j - 1] && r[j] in tail;
  }

  /** The row indices collected into the TreeSet, visiting the store in iteration order `order`. */
  function RowsOf(cells: Store, order: seq<string>): (r: seq<int>)
    ensures StrictlyAscending(r)
  {
    if order == [] then []
    else
      var acc := RowsOf(cells, order[..|order| - 1]);
      var k := order[|order| - 1];
      if k in cells then InsertSorted(acc, cells[k].row) else acc
  }

  /** The row indices that hold at least one cell. */
  function PopulatedRows(cells: Store): set<int> {
    set k | k in cells :: cells[k].row
  }

  /** The rows collected from the first `n` keys of the iteration order. */
  function RowsSeen(cells: Store, order: seq<string>, n: nat): set<int>
    requires n <= |order|
  {
    set j | 0 <= j < n && order[j] in cells :: cells[order[j]].row
  }

  lemma {:induction false} RowsOfElements(cells: Store, order: seq<string>)
    ensures forall y :: y in RowsOf(cells, order) <==> y in RowsSeen(cells, order, |order|)
    decreases |order|
  {
    if order != [] {
      var n := |order| - 1;
      var front := order[..n];
      RowsOfElements(cells, front);
      forall y ensures y in RowsSeen(cells, front, n) <==> y in RowsSeen(cells, order, n) {
        if y in RowsSeen(cells, front, n) {
          var j :| 0 <= j < n && front[j] in cells && cells[front[j]].row == y;
          assert order[j] == front[j];
        }
        if y in RowsSeen(cells, order, n) {
          var j :| 0 <= j < n && order[j] in cells && cells[order[j]].row == y;
          assert order[j] == front[j];
        }
      }
      forall y ensures y in RowsSeen(cells, order, n + 1) <==> y in RowsSeen(cells, order, n) || (order[n] in cells && y == cells[order[n]].row) {
        if y in RowsSeen(cells, order, n + 1) {
          var j :| 0 <= j < n + 1 && order[j] in cells && cells[order[j]].row == y;
          if j < n {
            assert y in RowsSeen(cells, order, n);
          }
        }
      }
    }
  }

  /** Over an iteration order of the store, the CSV rows are exactly the populated rows, ascending. */
  lemma CsvRows(cells: Store, order: seq<string>)
    requires Enumerates(order, cells.Keys)
    ensures StrictlyAscending(RowsOf(cells, order))
    ensures forall y :: y in RowsOf(cells, order) <==> y in PopulatedRows(cells)
  {
    RowsOfElements(cells, order);
    forall y ensures y in RowsSeen(cells, order, |order|) <==> y in PopulatedRows(cells) {
      if y in PopulatedRows(cells) {
        var k :| k in cells && cells[k].row == y;
        var j :| 0 <= j < |order| && order[j] == k;
      }
    }
  }

  /** An ascending sequence is determined by its elements. */
  lemma {:induction false} AscendingUnique(a: seq<int>, b: seq<int>)
    requires StrictlyAscending(a) && StrictlyAscending(b)
    requires forall y :: y in a <==> y in b
    ensures a == b
    decreases |a|
  {
    if a != [] {
      assert a[0] in a;
    }
    if b != [] {
      assert b[0] in b;
    }
    if a != [] && b != [] {
      assert a[0] == b[0];
      forall y ensures y in a[1..] <==> y in b[1..] {
        if y in a[1..] {
          assert y in a && y != a[0];
        }
        if y in b[1..] {
          assert y in b && y != b[0];
        }
      }
      AscendingUnique(a[1..], b[1..]);
      assert a == [a[0]] + a[1..] && b == [b[0]] + b[1..];
    }
  }

  /** An ascending sequence has as many entries as distinct elements. */
  lemma {:induction false} AscendingCard(s: seq<int>)
    requires StrictlyAscending(s)
    ensures |set y | y in s| == |s|
    decreases |s|
  {
    if s != [] {
      AscendingCard(s[1..]);
      assert (set y | y in s) == {s[0]} + (set y | y in s[1..]);
      assert s[0] !in s[1..];
    }
  }

  /**
    The text `StringBuilder.append(Object)` writes for a non-null value; `showNum` gives the text
    written for a non-Integer number, as a function of its doubleValue().
   */
  function ValueText(v: Value, showNum: real -> string): string {
    match v
    case Null => "null"
    case Bool(b) => if b then "true" else "false"
    case Int(i) => IntToString(i)
    case Num(x) => showNum(x)
    case Str(s) => s
  }

  /** One CSV field: empty for null, quoted for a string holding a comma, the value's text otherwise. */
  function Render(v: Value, showNum: real -> string): string {
    if v.Null? then ""
    else if v.Str? && ',' in v.s then "\"" + v.s + "\""
    else ValueText(v, showNum)
  }

  /** The field for a coordinate: empty when no cell is stored there. */
  function Field(cells: Store, column: string, row: int, showNum: real -> string): string {
    match CellAt(cells, column, row)
    case None => ""
    case Some(c) => Render(c.value, showNum)
  }

  function Names(columns: seq<Column>): (r: seq<string>)
    ensures |r| == |columns| && forall i :: 0 <= i < |columns| ==> r[i] == columns[i].name
  {
    seq(|columns|, i requires 0 <= i < |columns| => columns[i].name)
  }

  function Fields(cells: Store, columns: seq<Column>, row: int, showNum: real -> string): (r: seq<string>)
    ensures |r| == |columns|
    ensures forall i :: 0 <= i < |columns| ==> r[i] == Field(cells, columns[i].name, row, showNum)
  {
    seq(|columns|, i requires 0 <= i < |columns| => Field(cells, columns[i].name, row, showNum))
  }

  function Header(columns: seq<Column>): string {
    "Row," + Join(Names(columns), ",") + "\n"
  }

  function RowLine(cells: Store, columns: seq<Column>, row: int, showNum: real -> string): string {
    IntToString(row) + "," + Join(Fields(cells, columns, row, showNum), ",") + "\n"
  }

  function RowLines(cells: Store, columns: seq<Column>, rows: seq<int>, showNum: real -> string): string {
    if rows == [] then ""
    else RowLine(cells, columns, rows[0], showNum) + RowLines(cells, columns, rows[1..], showNum)
  }

  /** `convertSheetToCsv`, visiting the store in iteration order `order`. */
  function ToCsv(sheet: Sheet, order: seq<string>, showNum: real -> string): string {
    Header(sheet.columns) + RowLines(sheet.cells, sheet.columns, RowsOf(sheet.cells, order), showNum)
  }

  /** The CSV does not depend on the iteration order of the store. */
  lemma CsvOrderIndependent(sheet: Sheet, order1: seq<string>, order2: seq<string>, showNum: real -> string)
    requires Enumerates(order1, sheet.cells.Keys) && Enumerates(order2, sheet.cells.Keys)
    ensures ToCsv(sheet, order1, showNum) == ToCsv(sheet, order2, showNum)
  {
    CsvRows(sheet.cells, order1);
    CsvRows(sheet.cells, order2);
    AscendingUnique(RowsOf(sheet.cells, order1), RowsOf(sheet.cells, order2));
  }

  /** A quoted field reads back as the string: a reader strips the quotes the writer added. */
  function Unquote(field: string): string {
    if |field| >= 2 && field[0] == '"' && field[|field| - 1] == '"' && ',' in field[1..|field| - 1]
    then field[1..|field| - 1]
    else field
  }

  lemma RenderStringRoundTrip(s: string, showNum: real -> string)
    ensures Unquote(Render(Str(s), showNum)) == s
    ensures Render(Str(s), showNum) == s || ',' in s
  {
    var f := Render(Str(s), showNum);
    if ',' in s {
      assert f[1..|f| - 1] == s;
    }
  }

  /** A string holding a comma is written between double quotes; any other string is written as it is. */
  lemma RenderQuotesComma(s: string, showNum: real -> string)
    ensures ',' in s ==> Render(Str(s), showNum) == "\"" + s + "\""
    ensures ',' !in s ==> Render(Str(s), showNum) == s
  {
  }

  /**
    A coordinate without a cell, or whose cell holds null, gives an empty field; a stored non-null
    value gives its rendering.
   */
  lemma FieldEmptyUnlessValue(cells: Store, column: string, row: int, showNum: real -> string)
    ensures CellKey(column, row) !in cells || cells[CellKey(column, row)].value.Null? ==>
              Field(cells, column, row, showNum) == ""
    ensures CellKey(column, row) in cells && !cells[CellKey(column, row)].value.Null? ==>
              Field(cells, column, row, showNum) == Render(cells[CellKey(column, row)].value, showNum)
  {
  }

  /** The number of line breaks in a text. */
  function Newlines(s: string): nat {
    if s == [] then 0 else (if s[0] == '\n' then 1 else 0) + Newlines(s[1..])
  }

  lemma {:induction false} NewlinesAppend(a: string, b: string)
    ensures Newlines(a + b) == Newlines(a) + Newlines(b)
    decreases |a|
  {
    if a == [] {
      assert a + b == b;
    } else {
      assert (a + b)[0] == a[0] && (a + b)[1..] == a[1..] + b;
      NewlinesAppend(a[1..], b);
    }
  }

  lemma {:induction false} NewlinesNone(s: string)
    requires '\n' !in s
    ensures Newlines(s) == 0
    decreases |s|
  {
    if s != [] {
      assert s[0] in s;
      NewlinesNone(s[1..]);
    }
  }

  lemma {:induction false} JoinNoNewline(parts: seq<string>, sep: string)
    requires '\n' !in sep && forall i :: 0 <= i < |parts| ==> '\n' !in parts[i]
    ensures '\n' !in Join(parts, sep)
    decreases |parts|
  {
    if |parts| > 1 {
      JoinNoNewline(parts[1..], sep);
    }
  }

  lemma IntToStringNoNewline(i: int)
    ensures '\n' !in IntToString(i)
  {
    var digits := NatToString(if i < 0 then -i else i);
    assert forall k :: 0 <= k < |digits| ==> digits[k] != '\n';
    assert IntToString(i) == (if i < 0 then "-" else "") + digits;
  }

  /** A text ending in its only line break counts one line. */
  lemma OneLine(text: string)
    requires '\n' !in text
    ensures Newlines(text + "\n") == 1
  {
    NewlinesAppend(text, "\n");
    NewlinesNone(text);
  }

  /** No column name and no stored value's field text contains a line break. */
  predicate SingleLineFields(sheet: Sheet, showNum: real -> string) {
    && (forall i :: 0 <= i < |sheet.columns| ==> '\n' !in sheet.columns[i].name)
    && (forall k :: k in sheet.cells ==> '\n' !in Render(sheet.cells[k].value, showNum))
  }

  lemma {:induction false} RowLinesCount(sheet: Sheet, rows: seq<int>, showNum: real -> string)
    requires SingleLineFields(sheet, showNum)
    ensures Newlines(RowLines(sheet.cells, sheet.columns, rows, showNum)) == |rows|
    decreases |rows|
  {
    if rows != [] {
      var fields := Fields(sheet.cells, sheet.columns, rows[0], showNum);
      forall i | 0 <= i < |fields| ensures '\n' !in fields[i] {
        var c := CellAt(sheet.cells, sheet.columns[i].name, rows[0]);
      }
      JoinNoNewline(fields, ",");
      IntToStringNoNewline(rows[0]);
      OneLine(IntToString(rows[0]) + "," + Join(fields, ","));
      RowLinesCount(sheet, rows[1..], showNum);
      NewlinesAppend(RowLine(sheet.cells, sheet.columns, rows[0], showNum),
                     RowLines(sheet.cells, sheet.columns, rows[1..], showNum));
    }
  }

  /**
    When no field text contains a line break, the CSV has one line for the header and one for
    each distinct populated row index.
   */
  lemma CsvLineCount(sheet: Sheet, order: seq<string>, showNum: real -> string)
    requires Enumerates(order, sheet.cells.Keys)
    requires SingleLineFields(sheet, showNum)
    ensures Newlines(ToCsv(sheet, order, showNum)) == 1 + |PopulatedRows(sheet.cells)|
  {
    var rows := RowsOf(sheet.cells, order);
    CsvRows(sheet.cells, order);
    AscendingCard(rows);
    assert (set y | y in rows) == PopulatedRows(sheet.cells);
    JoinNoNewline(Names(sheet.columns), ",");
    OneLine("Row," + Join(Names(sheet.columns), ","));
    RowLinesCount(sheet, rows, showNum);
    NewlinesAppend(Header(sheet.columns), RowLines(sheet.cells, sheet.columns, rows, showNum));
  }

  /** The first line is the header: `Row,` and the column names joined by commas. */
  lemma CsvStartsWithHeader(sheet: Sheet, order: seq<string>, showNum: real -> string)
    ensures StartsWith(ToCsv(sheet, order, showNum), "Row," + Join(Names(sheet.columns), ",") + "\n")
  {
    var h := Header(sheet.columns);
    assert ToCsv(sheet, order, showNum)[..|h|] == h;
  }
}

=== FILE: csv_example.dfy ===
/**
  The sheet of the repository's CSV conversion test, rendered: columns A (string), B (int) and
  C (boolean); row 1 fully populated, row 3 without C, row 5 holding only a string with a comma.
  Whatever the store's iteration order, the CSV has the header, then rows 1, 3 and 5 with empty
  fields for the absent cells and the comma-holding string quoted.
 */
module CsvExample {
  import opened Text
  import opened Cells
  import opened Sheets
  import opened Csv
  import opened Wrappers
  import opened RefGraph
  import opened Validation
  import opened Service
  import LookupSyntax

  /** The example's schema. */
  const Columns: seq<Column> := [Column("A", "string"), Column("B", "int"), Column("C", "boolean")]

  /** The six cells the test writes, under their keys. */
  function ExampleCells(): Store {
    map["A,1" := NewCell("A", 1, Str("Hello")), "B,1" := NewCell("B", 1, Int(42)),
        "C,1" := NewCell("C", 1, Bool(true)), "A,3" := NewCell("A", 3, Str("World")),
        "B,3" := NewCell("B", 3, Int(99)), "A,5" := NewCell("A", 5, Str("Hello, World"))]
  }

  /** The text of a single decimal digit. */
  lemma DigitText(d: int)
    requires 0 <= d < 10
    ensures IntToString(d) == [DigitChar(d)]
  {
  }

  /** The text of a two-digit number. */
  lemma TwoDigitText(d: int)
    requires 10 <= d < 100
    ensures IntToString(d) == [DigitChar(d / 10), DigitChar(d % 10)]
  {
    assert NatToString(d / 10) == [DigitChar(d / 10)];
  }

  /** Joining three parts puts the separator between neighbours only. */
  lemma JoinThree(parts: seq<string>, sep: string)
    requires |parts| == 3
    ensures Join(parts, sep) == parts[0] + sep + parts[1] + sep + parts[2]
  {
    assert parts[1..][1..] == [parts[2]];
    assert Join(parts[1..], sep) == parts[1] + sep + parts[2];
  }

  lemma FieldsOfRow1(showNum: real -> string)
    ensures Fields(ExampleCells(), Columns, 1, showNum) == ["Hello", "42", "true"]
  {
    DigitText(1);
    TwoDigitText(42);
    var f := Fields(ExampleCells(), Columns, 1, showNum);
    assert CellKey("A", 1) == "A,1" && CellKey("B", 1) == "B,1" && CellKey("C", 1) == "C,1";
  }

  /** Each data line: the row index, then the fields of A, B and C. */
  lemma Line1(cells: Store, showNum: real -> string)
    requires Fields(cells, Columns, 1, showNum) == ["Hello", "42", "true"]
    ensures RowLine(cells, Columns, 1, showNum) == "1,Hello,42,true\n"
  {
    DigitText(1);
    JoinThree(["Hello", "42", "true"], ",");
  }

  lemma FieldsOfRow3(showNum: real -> string)
    ensures Fields(ExampleCells(), Columns, 3, showNum) == ["World", "99", ""]
  {
    DigitText(3);
    TwoDigitText(99);
    var f := Fields(ExampleCells(), Columns, 3, showNum);
    assert CellKey("A", 3) == "A,3" && CellKey("B", 3) == "B,3" && CellKey("C", 3) == "C,3";
  }

  lemma Line3(cells: Store, showNum: real -> string)
    requires Fields(cells, Columns, 3, showNum) == ["World", "99", ""]
    ensures RowLine(cells, Columns, 3, showNum) == "3,World,99,\n"
  {
    DigitText(3);
    JoinThree(["World", "99", ""], ",");
  }

  /** The fields of a row of the example schema, column by column. */
  lemma FieldsOfThree(cells: Store, row: int, showNum: real -> string)
    ensures Fields(cells, Columns, row, showNum)
            == [Field(cells, "A", row, showNum), Field(cells, "B", row, showNum), Field(cells, "C", row, showNum)]
  {
  }

  lemma QuotedField(showNum: real -> string)
    ensures Field(ExampleCells(), "A", 5, showNum) == "\"Hello, World\""
  {
    DigitText(5);
    assert CellKey("A", 5) == "A,5";
    assert ',' in "Hello, World";
    assert "\"" + "Hello, World" + "\"" == "\"Hello, World\"";
  }

  lemma AbsentFields(showNum: real -> string)
    ensures Field(ExampleCells(), "B", 5, showNum) == "" && Field(ExampleCells(), "C", 5, showNum) == ""
    ensures Field(ExampleCells(), "C", 3, showNum) == ""
  {
    DigitText(5);
    DigitText(3);
    assert CellKey("B", 5) == "B,5" && CellKey("C", 5) == "C,5" && CellKey("C", 3) == "C,3";
  }

  lemma FieldsOfRow5(showNum: real -> string)
    ensures Fields(ExampleCells(), Columns, 5, showNum) == ["\"Hello, World\"", "", ""]
  {
    FieldsOfThree(ExampleCells(), 5, showNum);
    QuotedField(showNum);
    AbsentFields(showNum);
  }

  lemma Line5(cells: Store, showNum: real -> string)
    requires Fields(cells, Columns, 5, showNum) == ["\"Hello, World\"", "", ""]
    ensures RowLine(cells, Columns, 5, showNum) == "5,\"Hello, World\",,\n"
  {
    var q := "\"Hello, World\"";
    DigitText(5);
    JoinThree([q, "", ""], ",");
    assert q + "," + "" + "," + "" == q + ",,";
    Line5Text();
  }

  lemma Line5Text()
    ensures "5" + "," + ("\"Hello, World\"" + ",,") + "\n" == "5,\"Hello, World\",,\n"
  {
  }

  lemma HeaderLine()
    ensures Header(Columns) == "Row,A,B,C\n"
  {
    assert Names(Columns) == ["A", "B", "C"];
    JoinThree(["A", "B", "C"], ",");
  }

  /** The rows come out as 1, 3, 5 for every iteration order of the store. */
  lemma ExampleRows(order: seq<string>)
    requires Enumerates(order, ExampleCells().Keys)
    ensures RowsOf(ExampleCells(), order) == [1, 3, 5]
  {
    CsvRows(ExampleCells(), order);
    ExamplePopulatedRows();
    AscendingUnique(RowsOf(ExampleCells(), order), [1, 3, 5]);
  }

  lemma ExamplePopulatedRows()
    ensures PopulatedRows(ExampleCells()) == {1, 3, 5}
  {
    var cells := ExampleCells();
    assert cells["A,1"].row == 1 && cells["A,3"].row == 3 && cells["A,5"].row == 5;
    forall y | y in PopulatedRows(cells) ensures y in {1, 3, 5} {
      var k :| k in cells && cells[k].row == y;
    }
  }

  lemma Body(showNum: real -> string)
    ensures RowLines(ExampleCells(), Columns, [1, 3, 5], showNum)
            == "1,Hello,42,true\n" + "3,World,99,\n" + "5,\"Hello, World\",,\n"
  {
    var rows := [1, 3, 5];
    assert rows[1..] == [3, 5] && rows[1..][1..] == [5] && rows[1..][1..][1..] == [];
    FieldsOfRow1(showNum);
    Line1(ExampleCells(), showNum);
    FieldsOfRow3(showNum);
    Line3(ExampleCells(), showNum);
    FieldsOfRow5(showNum);
    Line5(ExampleCells(), showNum);
  }

  /** The whole CSV text of the example sheet. */
  lemma Example(sheet: Sheet, order: seq<string>, showNum: real -> string)
    requires sheet.columns == Columns && sheet.cells == ExampleCells()
    requires Enumerates(order, sheet.cells.Keys)
    ensures ToCsv(sheet, order, showNum) == "Row,A,B,C\n" + "1,Hello,42,true\n" + "3,World,99,\n" + "5,\"Hello, World\",,\n"
  {
    ExampleRows(order);
    HeaderLine();
    Body(showNum);
  }

  /** The keys of the six cells the test writes. */
  lemma ExampleKeys()
    ensures CellKey("A", 1) == "A,1" && CellKey("B", 1) == "B,1" && CellKey("C", 1) == "C,1"
    ensures CellKey("A", 3) == "A,3" && CellKey("B", 3) == "B,3" && CellKey("A", 5) == "A,5"
  {
    DigitText(1);
    DigitText(3);
    DigitText(5);
  }

  /** Text without upper-case ASCII letters is its own lower-case form. */
  lemma {:induction false} LowerCaseUnchanged(t: string)
    requires forall i :: 0 <= i < |t| ==> !('A' <= t[i] <= 'Z')
    ensures ToLowerAscii(t) == t
  {
    if t != [] {
      LowerCaseUnchanged(t[1..]);
    }
  }

  /** Column A takes strings that are not lookup texts. */
  lemma StringColumn(s: string, isDouble: string -> bool)
    ensures ColumnByName(Columns, "A") == Some(Column("A", "string"))
    ensures ValidateValueType(Column("A", "string"), Str(s), isDouble) == Pass
  {
    LowerCaseUnchanged("string");
  }

  /** Column B takes Integers. */
  lemma IntColumn(i: Int32, isDouble: string -> bool)
    ensures ColumnByName(Columns, "B") == Some(Column("B", "int"))
    ensures ValidateValueType(Column("B", "int"), Int(i), isDouble) == Pass
  {
    LowerCaseUnchanged("int");
  }

  /** Column C takes Booleans. */
  lemma BooleanColumn(b: bool, isDouble: string -> bool)
    ensures ColumnByName(Columns, "C") == Some(Column("C", "boolean"))
    ensures ValidateValueType(Column("C", "boolean"), Bool(b), isDouble) == Pass
  {
    LowerCaseUnchanged("boolean");
  }

  /** The text "Hello, World" is written as a literal, not as a lookup expression. */
  lemma HelloWorldIsText()
    ensures !IsLookupText(Str("Hello, World"))
  {
    assert "Hello, World"[0] != LookupSyntax.Prefix[0];
  }

  /** The example's sheet after some of the test's writes: registered, invariant kept, no lookup cell. */
  ghost predicate ExampleSheet(reg: Registry, id: string, cells: Store) {
    RegistryInv(reg) && id in reg && reg[id].columns == Columns && reg[id].cells == cells && Links(cells) == map[]
  }

  /**
    What one of the test's writes needs besides the sheet: a declared column, a literal value of
    that column's type, its key, and the keys of the store after the write.
   */
  predicate WriteReady(column: Column, row: int, value: Value, key: string, cells: Store, keys: set<string>,
                       isDouble: string -> bool)
  {
    && ColumnByName(Columns, column.name) == Some(column) && !IsLookupText(value)
    && ValidateValueType(column, value, isDouble).Pass?
    && CellKey(column.name, row) == key
    && cells.Keys + {key} == keys
  }

  /**
    One of the test's writes: a valid literal into the example's sheet, whose store holds no lookup
    cell, upserts the plain cell and keeps the invariant.
   */
  lemma WriteStep(reg: Registry, id: string, column: Column, row: int, value: Value, key: string,
                  cells: Store, keys: set<string>, order: seq<string>, isDouble: string -> bool)
    requires ExampleSheet(reg, id, cells)
    requires WriteReady(column, row, value, key, cells, keys, isDouble) && Enumerates(order, keys)
    ensures ExampleSheet(SetCellValue(reg, id, column.name, row, value, order, isDouble).0, id,
                         cells[key := NewCell(column.name, row, value)])
  {
    LiteralWriteUpserts(reg, id, column.name, row, value, order, isDouble);
  }

  /** What `WriteA1` needs of its column, value and key. */
  lemma ReadyA1(isDouble: string -> bool)
    ensures WriteReady(Column("A", "string"), 1, Str("Hello"), "A,1", map[], {"A,1"}, isDouble)
  {
    assert CellKey("A", 1) == "A,1" by { ExampleKeys(); }
    StringColumn("Hello", isDouble);
    var cells: Store := map[];
    assert cells.Keys + {"A,1"} == {"A,1"};
  }

  /** `setCellValue(sheetId, "A", 1, "Hello")`. */
  lemma WriteA1(reg: Registry, id: string, order: seq<string>, isDouble: string -> bool)
    requires ExampleSheet(reg, id, map[])
    requires Enumerates(order, {"A,1"})
    ensures ExampleSheet(SetCellValue(reg, id, "A", 1, Str("Hello"), order, isDouble).0, id,
                         map["A,1" := NewCell("A", 1, Str("Hello"))])
  {
    ReadyA1(isDouble);
    WriteStep(reg, id, Column("A", "string"), 1, Str("Hello"), "A,1", map[], {"A,1"}, order, isDouble);
  }

  /** What `WriteB1` needs of its column, value and key. */
  lemma ReadyB1(isDouble: string -> bool)
    ensures WriteReady(Column("B", "int"), 1, Int(42), "B,1", map["A,1" := NewCell("A", 1, Str("Hello"))], {"A,1", "B,1"}, isDouble)
  {
    assert CellKey("B", 1) == "B,1" by { ExampleKeys(); }
    IntColumn(42, isDouble);
    var cells: Store := map["A,1" := NewCell("A", 1, Str("Hello"))];
    assert cells.Keys + {"B,1"} == {"A,1", "B,1"};
  }

  /** `setCellValue(sheetId, "B", 1, 42)`. */
  lemma WriteB1(reg: Registry, id: string, order: seq<string>, isDouble: string -> bool)
    requires ExampleSheet(reg, id, map["A,1" := NewCell("A", 1, Str("Hello"))])
    requires Enumerates(order, {"A,1", "B,1"})
    ensures ExampleSheet(SetCellValue(reg, id, "B", 1, Int(42), order, isDouble).0, id,
                         map["A,1" := NewCell("A", 1, Str("Hello")), "B,1" := NewCell("B", 1, Int(42))])
  {
    ReadyB1(isDouble);
    WriteStep(reg, id, Column("B", "int"), 1, Int(42), "B,1", map["A,1" := NewCell("A", 1, Str("Hello"))], {"A,1", "B,1"}, order, isDouble);
  }

  /** What `WriteC1` needs of its column, value and key. */
  lemma ReadyC1(isDouble: string -> bool)
    ensures WriteReady(Column("C", "boolean"), 1, Bool(true), "C,1", map["A,1" := NewCell("A", 1, Str("Hello")), "B,1" := NewCell("B", 1, Int(42))], {"A,1", "B,1", "C,1"}, isDouble)
  {
    assert CellKey("C", 1) == "C,1" by { ExampleKeys(); }
    BooleanColumn(true, isDouble);
    var cells: Store := map["A,1" := NewCell("A", 1, Str("Hello")), "B,1" := NewCell("B", 1, Int(42))];
    assert cells.Keys + {"C,1"} == {"A,1", "B,1", "C,1"};
  }

  /** `setCellValue(sheetId, "C", 1, true)`. */
  lemma WriteC1(reg: Registry, id: string, order: seq<string>, isDouble: string -> bool)
    requires ExampleSheet(reg, id, map["A,1" := NewCell("A", 1, Str("Hello")), "B,1" := NewCell("B", 1, Int(42))])
    requires Enumerates(order, {"A,1", "B,1", "C,1"})
    ensures ExampleSheet(SetCellValue(reg, id, "C", 1, Bool(true), order, isDouble).0, id,
                         map["A,1" := NewCell("A", 1, Str("Hello")), "B,1" := NewCell("B", 1, Int(42)), "C,1" := NewCell("C", 1, Bool(true))])
  {
    ReadyC1(isDouble);
    WriteStep(reg, id, Column("C", "boolean"), 1, Bool(true), "C,1", map["A,1" := NewCell("A", 1, Str("Hello")), "B,1" := NewCell("B", 1, Int(42))], {"A,1", "B,1", "C,1"}, order, isDouble);
  }

  /** What `WriteA3` needs of its column, value and key. */
  lemma ReadyA3(isDouble: string -> bool)
    ensures WriteReady(Column("A", "string"), 3, Str("World"), "A,3", map["A,1" := NewCell("A", 1, Str("Hello")), "B,1" := NewCell("B", 1, Int(42)), "C,1" := NewCell("C", 1, Bool(true))], {"A,1", "B,1", "C,1", "A,3"}, isDouble)
  {
    assert CellKey("A", 3) == "A,3" by { ExampleKeys(); }
    StringColumn("World", isDouble);
    var cells: Store := map["A,1" := NewCell("A", 1, Str("Hello")), "B,1" := NewCell("B", 1, Int(42)), "C,1" := NewCell("C", 1, Bool(true))];
    assert cells.Keys + {"A,3"} == {"A,1", "B,1", "C,1", "A,3"};
  }

  /** `setCellValue(sheetId, "A", 3, "World")`. */
  lemma WriteA3(reg: Registry, id: string, order: seq<string>, isDouble: string -> bool)
    requires ExampleSheet(reg, id, map["A,1" := NewCell("A", 1, Str("Hello")), "B,1" := NewCell("B", 1, Int(42)), "C,1" := NewCell("C", 1, Bool(true))])
    requires Enumerates(order, {"A,1", "B,1", "C,1", "A,3"})
    ensures ExampleSheet(SetCellValue(reg, id, "A", 3, Str("World"), order, isDouble).0, id,
                         map["A,1" := NewCell("A", 1, Str("Hello")), "B,1" := NewCell("B", 1, Int(42)), "C,1" := NewCell("C", 1, Bool(true)), "A,3" := NewCell("A", 3, Str("World"))])
  {
    ReadyA3(isDouble);
    WriteStep(reg, id, Column("A", "string"), 3, Str("World"), "A,3", map["A,1" := NewCell("A", 1, Str("Hello")), "B,1" := NewCell("B", 1, Int(42)), "C,1" := NewCell("C", 1, Bool(true))], {"A,1", "B,1", "C,1", "A,3"}, order, isDouble);
  }

  /** What `WriteB3` needs of its column, value and key. */
  lemma ReadyB3(isDouble: string -> bool)
    ensures WriteReady(Column("B", "int"), 3, Int(99), "B,3", map["A,1" := NewCell("A", 1, Str("Hello")), "B,1" := NewCell("B", 1, Int(42)), "C,1" := NewCell("C", 1, Bool(true)), "A,3" := NewCell("A", 3, Str("World"))], {"A,1", "B,1", "C,1", "A,3", "B,3"}, isDouble)
  {
    assert CellKey("B", 3) == "B,3" by { ExampleKeys(); }
    IntColumn(99, isDouble);
    var cells: Store := map["A,1" := NewCell("A", 1, Str("Hello")), "B,1" := NewCell("B", 1, Int(42)), "C,1" := NewCell("C", 1, Bool(true)), "A,3" := NewCell("A", 3, Str("World"))];
    assert cells.Keys + {"B,3"} == {"A,1", "B,1", "C,1", "A,3", "B,3"};
  }

  /** `setCellValue(sheetId, "B", 3, 99)`. */
  lemma WriteB3(reg: Registry, id: string, order: seq<string>, isDouble: string -> bool)
    requires ExampleSheet(reg, id, map["A,1" := NewCell("A", 1, Str("Hello")), "B,1" := NewCell("B", 1, Int(42)), "C,1" := NewCell("C", 1, Bool(true)), "A,3" := NewCell("A", 3, Str("World"))])
    requires Enumerates(order, {"A,1", "B,1", "C,1", "A,3", "B,3"})
    ensures ExampleSheet(SetCellValue(reg, id, "B", 3, Int(99), order, isDouble).0, id,
                         map["A,1" := NewCell("A", 1, Str("Hello")), "B,1" := NewCell("B", 1, Int(42)), "C,1" := NewCell("C", 1, Bool(true)), "A,3" := NewCell("A", 3, Str("World")), "B,3" := NewCell("B", 3, Int(99))])
  {
    ReadyB3(isDouble);
    WriteStep(reg, id, Column("B", "int"), 3, Int(99), "B,3", map["A,1" := NewCell("A", 1, Str("Hello")), "B,1" := NewCell("B", 1, Int(42)), "C,1" := NewCell("C", 1, Bool(true)), "A,3" := NewCell("A", 3, Str("World"))], {"A,1", "B,1", "C,1", "A,3", "B,3"}, order, isDouble);
  }

  /** What `WriteA5` needs of its column, value and key. */
  lemma ReadyA5(isDouble: string -> bool)
    ensures WriteReady(Column("A", "string"), 5, Str("Hello, World"), "A,5", map["A,1" := NewCell("A", 1, Str("Hello")), "B,1" := NewCell("B", 1, Int(42)), "C,1" := NewCell("C", 1, Bool(true)), "A,3" := NewCell("A", 3, Str("World")), "B,3" := NewCell("B", 3, Int(99))], {"A,1", "B,1", "C,1", "A,3", "B,3", "A,5"}, isDouble)
  {
    assert CellKey("A", 5) == "A,5" by { ExampleKeys(); }
    StringColumn("Hello, World", isDouble);
    HelloWorldIsText();
    var cells: Store := map["A,1" := NewCell("A", 1, Str("Hello")), "B,1" := NewCell("B", 1, Int(42)), "C,1" := NewCell("C", 1, Bool(true)), "A,3" := NewCell("A", 3, Str("World")), "B,3" := NewCell("B", 3, Int(99))];
    assert cells.Keys + {"A,5"} == {"A,1", "B,1", "C,1", "A,3", "B,3", "A,5"};
  }

  /** `setCellValue(sheetId, "A", 5, "Hello, World")`. */
  lemma WriteA5(reg: Registry, id: string, order: seq<string>, isDouble: string -> bool)
    requires ExampleSheet(reg, id, map["A,1" := NewCell("A", 1, Str("Hello")), "B,1" := NewCell("B", 1, Int(42)), "C,1" := NewCell("C", 1, Bool(true)), "A,3" := NewCell("A", 3, Str("World")), "B,3" := NewCell("B", 3, Int(99))])
    requires Enumerates(order, {"A,1", "B,1", "C,1", "A,3", "B,3", "A,5"})
    ensures ExampleSheet(SetCellValue(reg, id, "A", 5, Str("Hello, World"), order, isDouble).0, id,
                         map["A,1" := NewCell("A", 1, Str("Hello")), "B,1" := NewCell("B", 1, Int(42)), "C,1" := NewCell("C", 1, Bool(true)), "A,3" := NewCell("A", 3, Str("World")), "B,3" := NewCell("B", 3, Int(99)), "A,5" := NewCell("A", 5, Str("Hello, World"))])
  {
    ReadyA5(isDouble);
    WriteStep(reg, id, Column("A", "string"), 5, Str("Hello, World"), "A,5", map["A,1" := NewCell("A", 1, Str("Hello")), "B,1" := NewCell("B", 1, Int(42)), "C,1" := NewCell("C", 1, Bool(true)), "A,3" := NewCell("A", 3, Str("World")), "B,3" := NewCell("B", 3, Int(99))], {"A,1", "B,1", "C,1", "A,3", "B,3", "A,5"}, order, isDouble);
  }

  /**
    The example store is what the test builds: `createSheet` with the three columns, then its six
    `setCellValue` calls, whatever the new sheet's id and the store's iteration order at each write.
   */
  lemma ExampleBuiltByService(reg: Registry, id: string, isDouble: string -> bool,
                              o1: seq<string>, o2: seq<string>, o3: seq<string>,
                              o4: seq<string>, o5: seq<string>, o6: seq<string>)
    requires RegistryInv(reg)
    requires Enumerates(o1, {"A,1"})
    requires Enumerates(o2, {"A,1", "B,1"})
    requires Enumerates(o3, {"A,1", "B,1", "C,1"})
    requires Enumerates(o4, {"A,1", "B,1", "C,1", "A,3"})
    requires Enumerates(o5, {"A,1", "B,1", "C,1", "A,3", "B,3"})
    requires Enumerates(o6, {"A,1", "B,1", "C,1", "A,3", "B,3", "A,5"})
    ensures var r0 := CreateSheet(reg, id, Columns).0;
            var r1 := SetCellValue(r0, id, "A", 1, Str("Hello"), o1, isDouble).0;
            var r2 := SetCellValue(r1, id, "B", 1, Int(42), o2, isDouble).0;
            var r3 := SetCellValue(r2, id, "C", 1, Bool(true), o3, isDouble).0;
            var r4 := SetCellValue(r3, id, "A", 3, Str("World"), o4, isDouble).0;
            var r5 := SetCellValue(r4, id, "B", 3, Int(99), o5, isDouble).0;
            var r6 := SetCellValue(r5, id, "A", 5, Str("Hello, World"), o6, isDouble).0;
            id in r6 && r6[id].cells == ExampleCells()
  {
    var r0 := CreateSheet(reg, id, Columns).0;
    CreateSheetKeepsInv(reg, id, Columns);
    assert Links(map[]) == map[];
    WriteA1(r0, id, o1, isDouble);
    var r1 := SetCellValue(r0, id, "A", 1, Str("Hello"), o1, isDouble).0;
    WriteB1(r1, id, o2, isDouble);
    var r2 := SetCellValue(r1, id, "B", 1, Int(42), o2, isDouble).0;
    WriteC1(r2, id, o3, isDouble);
    var r3 := SetCellValue(r2, id, "C", 1, Bool(true), o3, isDouble).0;
    WriteA3(r3, id, o4, isDouble);
    var r4 := SetCellValue(r3, id, "A", 3, Str("World"), o4, isDouble).0;
    WriteB3(r4, id, o5, isDouble);
    var r5 := SetCellValue(r4, id, "B", 3, Int(99), o5, isDouble).0;
    WriteA5(r5, id, o6, isDouble);
  }
}

=== FILE: cycles.dfy ===
/**
  Cycle detection before a lookup cell is committed: a self-reference is rejected outright,
  otherwise the chain of references is walked from the referenced coordinate, remembering the
  keys on the path, until it arrives at the new cell (a cycle), at an absent or literal cell (no
  cycle), or at a key it has already passed (an older cycle that does not involve the new cell).
 */
module Cycles {
  import opened Wrappers
  import opened Text
  import opened Cells
  import opened Sheets
  import opened Errors
  import opened RefGraph

  /**
    `checkPathForCycles`: follows references from `column,row` looking for the target
    coordinate. A lookup cell whose referenced coordinates are missing stops the walk with
    MissingDescriptor (a NullPointerException in the service).
   */
  function CheckPath(cells: Store, column: string, row: int, targetColumn: string, targetRow: int,
                     pathVisited: set<string>): (r: Outcome<Error>)
    ensures r.Fail? ==> r.error in {ReferenceCycle, MissingDescriptor}
    ensures column == targetColumn && row == targetRow ==> r == Fail(ReferenceCycle)
    ensures CellKey(column, row) !in cells || !IsLookup(cells[CellKey(column, row)]) ==>
              (r.Fail? <==> column == targetColumn && row == targetRow)
    decreases |cells.Keys - pathVisited|
  {
    if column == targetColumn && row == targetRow then Fail(ReferenceCycle)
    else
      var key := CellKey(column, row);
      if key !in cells || !IsLookup(cells[key]) then Pass
      else if key in pathVisited then Pass
      else
        var c := cells[key];
        if !HasReference(c) then Fail(MissingDescriptor)
        else
          assert cells.Keys - pathVisited == (cells.Keys - (pathVisited + {key})) + {key};
          CheckPath(cells, c.referencedColumn.value, c.referencedRow.value, targetColumn, targetRow, pathVisited + {key})
  }

  /**
    The walk ends silently at an older cycle that does not pass the target: from a key on a cycle
    of the reference graph that does not reach the target, the walk goes round the cycle until it
    meets a key already on its path, and passes. The store need not be well-formed.
   */
  lemma {:induction false} CheckPathStopsAtOtherCycle(cells: Store, column: string, row: int,
                                                      targetColumn: string, targetRow: int, pathVisited: set<string>)
    requires ReachesPlus(Links(cells), CellKey(column, row), CellKey(column, row))
    requires !Reaches(Links(cells), CellKey(column, row), CellKey(targetColumn, targetRow))
    ensures CheckPath(cells, column, row, targetColumn, targetRow, pathVisited) == Pass
    decreases |cells.Keys - pathVisited|
  {
    var g := Links(cells);
    var key := CellKey(column, row);
    assert ReachesIn(g, key, key, 0);
    if key !in pathVisited {
      var c := cells[key];
      var next := RefKey(c);
      assert g[key] == next;
      var n: nat :| n > 0 && ReachesIn(g, key, key, n);
      assert ReachesIn(g, next, key, n - 1);
      assert ReachesIn(g, key, next, 1);
      ReachesInConcat(g, next, key, next, n - 1, 1);
      if Reaches(g, next, CellKey(targetColumn, targetRow)) {
        var m: nat :| ReachesIn(g, next, CellKey(targetColumn, targetRow), m);
        ReachesInConcat(g, key, next, CellKey(targetColumn, targetRow), 1, m);
        assert false;
      }
      assert cells.Keys - pathVisited == (cells.Keys - (pathVisited + {key})) + {key};
      CheckPathStopsAtOtherCycle(cells, c.referencedColumn.value, c.referencedRow.value,
                                 targetColumn, targetRow, pathVisited + {key});
    }
  }

  /**
    Two cells referencing each other form an older cycle; a walk that enters it while looking for
    a third coordinate passes.
   */
  lemma TwoCellCycleWalk(cells: Store)
    requires cells == map["A,1" := Cell("A", 1, Null, Some("lookup(B,1)"), Some("B"), Some(1)),
                          "B,1" := Cell("B", 1, Null, Some("lookup(A,1)"), Some("A"), Some(1))]
    ensures CheckPath(cells, "A", 1, "C", 1, {CellKey("C", 1)}) == Pass
  {
    var g := Links(cells);
    assert CellKey("A", 1) == "A,1" && CellKey("B", 1) == "B,1" && CellKey("C", 1) == "C,1";
    assert g == map["A,1" := "B,1", "B,1" := "A,1"];
    assert ReachesIn(g, "A,1", "A,1", 2);
    forall n: nat ensures !ReachesIn(g, "A,1", "C,1", n) {
      OnTwoCycle(g, "A,1", n);
    }
    CheckPathStopsAtOtherCycle(cells, "A", 1, "C", 1, {CellKey("C", 1)});
  }

  /** Every chain of the two-cell cycle stays on its two keys. */
  lemma {:induction false} OnTwoCycle(g: Graph, a: string, n: nat)
    requires g == map["A,1" := "B,1", "B,1" := "A,1"] && a in g
    ensures !ReachesIn(g, a, "C,1", n)
    decreases n
  {
    if n > 0 {
      OnTwoCycle(g, g[a], n - 1);
    }
  }

  /**
    `checkForCycles`: a lookup cell referencing its own coordinate is a self-reference cycle;
    otherwise the chain from its referenced coordinate must not come back to it. Literal cells
    pass. A lookup cell without referenced coordinates fails with MissingDescriptor.
   */
  function CheckForCycles(cells: Store, cell: Cell): (r: Outcome<Error>)
    ensures !IsLookup(cell) ==> r.Pass?
    ensures r == Fail(SelfReferenceCycle) <==>
              HasReference(cell) && cell.referencedColumn.value == cell.column && cell.referencedRow.value == cell.row
    ensures r.Fail? ==> r.error in {SelfReferenceCycle, ReferenceCycle, MissingDescriptor}
  {
    if !IsLookup(cell) then Pass
    else if !HasReference(cell) then Fail(MissingDescriptor)
    else if cell.referencedColumn.value == cell.column && cell.referencedRow.value == cell.row then Fail(SelfReferenceCycle)
    else
      CheckPath(cells, cell.referencedColumn.value, cell.referencedRow.value, cell.column, cell.row,
                {CellKey(cell.column, cell.row)})
  }

  /**
    Exactness of the walk on a well-formed acyclic store: it fails exactly when the chain from the
    current coordinate reaches the target, provided every non-target key already on the path
    reaches the current coordinate (which is how the walk builds the path).
   */
  lemma {:induction false} CheckPathExact(cells: Store, g: Graph, column: string, row: int,
                                          targetColumn: string, targetRow: int, pathVisited: set<string>)
    requires WellFormed(cells) && g == Links(cells) && Acyclic(g)
    requires CellKey(targetColumn, targetRow) in pathVisited
    requires forall p :: p in pathVisited && p != CellKey(targetColumn, targetRow) ==>
               ReachesPlus(g, p, CellKey(column, row))
    ensures CheckPath(cells, column, row, targetColumn, targetRow, pathVisited)
            == if Reaches(g, CellKey(column, row), CellKey(targetColumn, targetRow)) then Fail(ReferenceCycle) else Pass
    decreases |cells.Keys - pathVisited|
  {
    var key := CellKey(column, row);
    var target := CellKey(targetColumn, targetRow);
    CellKeyInjective(column, row, targetColumn, targetRow);
    if column == targetColumn && row == targetRow {
      assert ReachesIn(g, key, target, 0);
    } else if key !in cells || !IsLookup(cells[key]) {
      ReachesFromLeaf(g, key, target);
    } else if key in pathVisited {
      assert false;
    } else {
      var c := cells[key];
      var next := CellKey(c.referencedColumn.value, c.referencedRow.value);
      assert g[key] == next;
      forall p | p in pathVisited + {key} && p != target
        ensures ReachesPlus(g, p, next)
      {
        assert ReachesIn(g, key, next, 1);
        if p != key {
          var n: nat :| n > 0 && ReachesIn(g, p, key, n);
          ReachesInConcat(g, p, key, next, n, 1);
        }
      }
      assert cells.Keys - pathVisited == (cells.Keys - (pathVisited + {key})) + {key};
      CheckPathExact(cells, g, c.referencedColumn.value, c.referencedRow.value, targetColumn, targetRow,
                     pathVisited + {key});
      ReachesThroughEdge(g, key, target);
    }
  }

  /** `p` gets to `k` in one or more references without passing the target `t` on the way. */
  ghost predicate WalkedTo(g: Graph, p: string, k: string, t: string) {
    exists n: nat :: n > 0 && ReachesAvoiding(g, p, k, t, n)
  }

  /**
    Exactness of the walk on every well-formed store, cyclic or not: it fails exactly when the
    chain from the current coordinate reaches the target, provided every non-target key on the
    path gets to the current coordinate without passing the target, which is how the walk builds
    its path. A key met a second time therefore lies on a cycle that avoids the target.
   */
  lemma {:induction false} CheckPathWalkExact(cells: Store, g: Graph, column: string, row: int,
                                              targetColumn: string, targetRow: int, pathVisited: set<string>)
    requires WellFormed(cells) && g == Links(cells)
    requires CellKey(targetColumn, targetRow) in pathVisited
    requires forall p :: p in pathVisited && p != CellKey(targetColumn, targetRow) ==>
               WalkedTo(g, p, CellKey(column, row), CellKey(targetColumn, targetRow))
    ensures CheckPath(cells, column, row, targetColumn, targetRow, pathVisited)
            == if Reaches(g, CellKey(column, row), CellKey(targetColumn, targetRow)) then Fail(ReferenceCycle) else Pass
    decreases |cells.Keys - pathVisited|
  {
    var key := CellKey(column, row);
    var target := CellKey(targetColumn, targetRow);
    CellKeyInjective(column, row, targetColumn, targetRow);
    if column == targetColumn && row == targetRow {
      assert ReachesIn(g, key, target, 0);
    } else if key !in cells || !IsLookup(cells[key]) {
      ReachesFromLeaf(g, key, target);
    } else if key in pathVisited {
      var n: nat :| n > 0 && ReachesAvoiding(g, key, key, target, n);
      forall m: nat ensures !ReachesIn(g, key, target, m) {
        CycleAvoids(g, key, target, n, m);
      }
    } else {
      var c := cells[key];
      var next := CellKey(c.referencedColumn.value, c.referencedRow.value);
      assert g[key] == next;
      assert ReachesAvoiding(g, key, next, target, 1);
      forall p | p in pathVisited + {key} && p != target
        ensures WalkedTo(g, p, next, target)
      {
        if p != key {
          var n: nat :| n > 0 && ReachesAvoiding(g, p, key, target, n);
          AvoidingConcat(g, p, key, next, target, n, 1);
        }
      }
      assert cells.Keys - pathVisited == (cells.Keys - (pathVisited + {key})) + {key};
      CheckPathWalkExact(cells, g, c.referencedColumn.value, c.referencedRow.value, targetColumn, targetRow,
                         pathVisited + {key});
      ReachesThroughEdge(g, key, target);
    }
  }

  /**
    Without acyclicity, CheckPathExact's condition on the path is too weak: with X and T
    referencing each other and both already on the path, the walk from X passes at once although
    X reaches the target T.
   */
  lemma ArbitraryPathNeedsAcyclic(cells: Store)
    requires cells == map["X,1" := Cell("X", 1, Null, Some("lookup(T,1)"), Some("T"), Some(1)),
                          "T,1" := Cell("T", 1, Null, Some("lookup(X,1)"), Some("X"), Some(1))]
    ensures WellFormed(cells) && !Acyclic(Links(cells))
    ensures ReachesPlus(Links(cells), "T,1", "X,1") && ReachesPlus(Links(cells), "X,1", "X,1")
    ensures Reaches(Links(cells), CellKey("X", 1), CellKey("T", 1))
    ensures CheckPath(cells, "X", 1, "T", 1, {"T,1", "X,1"}) == Pass
  {
    var g := Links(cells);
    assert CellKey("X", 1) == "X,1" && CellKey("T", 1) == "T,1";
    assert g == map["X,1" := "T,1", "T,1" := "X,1"];
    assert ReachesIn(g, "T,1", "X,1", 1);
    assert ReachesIn(g, "X,1", "X,1", 2);
    assert ReachesIn(g, "X,1", "T,1", 1);
  }

  /**
    On every well-formed store, a lookup cell carrying its coordinates is rejected exactly when its
    reference chain leads back to its own key: at once (self-reference) or later.
   */
  lemma CheckForCyclesExact(cells: Store, cell: Cell)
    requires WellFormed(cells)
    requires HasReference(cell)
    ensures CheckForCycles(cells, cell)
            == if RefKey(cell) == CellKey(cell.column, cell.row) then Fail(SelfReferenceCycle)
               else if Reaches(Links(cells), RefKey(cell), CellKey(cell.column, cell.row)) then Fail(ReferenceCycle)
               else Pass
  {
    var key := CellKey(cell.column, cell.row);
    CellKeyInjective(cell.referencedColumn.value, cell.referencedRow.value, cell.column, cell.row);
    if RefKey(cell) != key {
      CheckPathWalkExact(cells, Links(cells), cell.referencedColumn.value, cell.referencedRow.value,
                         cell.column, cell.row, {key});
    }
  }

  /**
    Committing a lookup cell that passed the check keeps the reference graph acyclic; committing a
    literal cell removes an edge and cannot create a cycle either.
   */
  lemma CommitKeepsAcyclic(cells: Store, cell: Cell)
    requires WellFormed(cells) && Acyclic(Links(cells))
    requires IsLookup(cell) ==> HasReference(cell)
    requires CheckForCycles(cells, cell).Pass?
    ensures Acyclic(Links(cells[CellKey(cell.column, cell.row) := cell]))
  {
    var key := CellKey(cell.column, cell.row);
    var g := Links(cells);
    var h := Links(cells[key := cell]);
    if HasReference(cell) {
      CheckForCyclesExact(cells, cell);
      assert h[key] == RefKey(cell);
    }
    AcyclicAfterEdgeChange(g, h, key);
  }
}

=== FILE: errors.dfy ===
/** The distinct rejection reasons of the engine (each an IllegalArgumentException in the service). */
module Errors {

  datatype Error =
    | SheetNotFound
    | ColumnNotFound
    | DuplicateSheetId
      /** The text starts with `lookup(` but does not match the lookup grammar. */
    | InvalidLookupFormat
      /** The referenced row's digits exceed the 32-bit range (NumberFormatException). */
    | LookupRowOutOfRange
    | ReferencedColumnNotFound
      /** The referenced column's type text differs from the target column's type text. */
    | LookupTypeMismatch
    | ExpectedBoolean
    | ExpectedInteger
    | ExpectedDouble
    | UnsupportedColumnType
    | SelfReferenceCycle
    | ReferenceCycle
      /** A lookup cell in the store without referenced coordinates (a NullPointerException in Java). */
    | MissingDescriptor
}

=== FILE: lookup_syntax.dfy ===
/**
  The lookup expression grammar: the whole text must match
  `lookup\(\s*([A-Za-z]+)\s*,\s*(\d+)\s*\)`. The parser reads it left to right with maximal
  runs; since letters, digits, blanks, ',' and ')' are disjoint classes, a maximal run is the
  only way the pattern can match, so the parser accepts exactly the texts the pattern matches.
 */
module LookupSyntax {
  import opened Wrappers
  import opened Text

  const Prefix: string := "lookup("

  predicate AllSpace(s: string) {
    forall i :: 0 <= i < |s| ==> IsRegexSpace(s[i])
  }

  predicate AllLetters(s: string) {
    forall i :: 0 <= i < |s| ==> IsAsciiLetter(s[i])
  }

  /** The character classes the pattern repeats: `\s`, `[A-Za-z]` and `\d`. */
  datatype CharClass = Blank | Letter | Digit

  predicate In(c: char, k: CharClass) {
    match k
    case Blank => IsRegexSpace(c)
    case Letter => IsAsciiLetter(c)
    case Digit => IsAsciiDigit(c)
  }

  /** The length of the longest prefix of `s` whose characters all belong to class `k`. */
  function Span(s: string, k: CharClass): (n: nat)
    ensures n <= |s|
    ensures forall i :: 0 <= i < n ==> In(s[i], k)
    ensures n < |s| ==> !In(s[n], k)
  {
    if s == [] || !In(s[0], k) then 0
    else 1 + Span(s[1..], k)
  }

  /** A run of `p` characters followed by text that does not start with one is split at the run's end. */
  lemma {:induction false} SpanOfConcat(a: string, b: string, k: CharClass)
    requires forall i :: 0 <= i < |a| ==> In(a[i], k)
    requires b == [] || !In(b[0], k)
    ensures Span(a + b, k) == |a|
  {
    if a != [] {
      assert (a + b)[1..] == a[1..] + b;
      SpanOfConcat(a[1..], b, k);
    }
  }

  /** Drops the leading run of `\s` characters. */
  function SkipSpace(t: string): (u: string)
    ensures |u| <= |t| && t == Skipped(t, u) + u && AllSpace(Skipped(t, u))
    ensures u == [] || !IsRegexSpace(u[0])
  {
    var k := Span(t, Blank);
    assert t == t[..k] + t[k..];
    t[k..]
  }

  /** The blanks SkipSpace dropped from the front of `t` to leave `u`. */
  function Skipped(t: string, u: string): string
    requires |u| <= |t|
  {
    t[..|t| - |u|]
  }

  /** Skipping blanks in front of text that does not start with a blank gives that text. */
  lemma {:induction false} SkipSpaceOfConcat(w: string, u: string)
    requires AllSpace(w)
    requires u == [] || !IsRegexSpace(u[0])
    ensures SkipSpace(w + u) == u
  {
    SpanOfConcat(w, u, Blank);
    assert (w + u)[|w|..] == u;
  }

  lemma {:induction false} SplitAt(t: string, n: nat)
    requires n <= |t|
    ensures t == t[..n] + t[n..]
  {
  }

  lemma {:induction false} ConcatAssoc(a: string, b: string, c: string, d: string)
    ensures a + (b + (c + d)) == a + b + c + d
  {
  }

  /*
    The pattern, read from the right: each stage says which texts a suffix of the input may be.
  */

  /** `(\d+)\s*\)` with `digits` as the group. */
  ghost predicate DigitsPart(t: string, digits: string) {
    && |digits| > 0 && AllDigits(digits)
    && exists w: string :: AllSpace(w) && t == digits + w + ")"
  }

  /** `\s*,\s*(\d+)\s*\)`. */
  ghost predicate CommaPart(t: string, digits: string) {
    exists w1: string, w2: string, rest: string ::
      AllSpace(w1) && AllSpace(w2) && t == w1 + "," + w2 + rest && DigitsPart(rest, digits)
  }

  /** `([A-Za-z]+)\s*,\s*(\d+)\s*\)`. */
  ghost predicate ColumnPart(t: string, column: string, digits: string) {
    && |column| > 0 && AllLetters(column)
    && exists rest: string :: t == column + rest && CommaPart(rest, digits)
  }

  /** The whole text matches `lookup\(\s*([A-Za-z]+)\s*,\s*(\d+)\s*\)` with the given groups. */
  ghost predicate MatchesLookup(s: string, column: string, digits: string) {
    exists w: string, rest: string :: AllSpace(w) && s == Prefix + w + rest && ColumnPart(rest, column, digits)
  }

  function ParseDigitsPart(t: string): Option<string> {
    var m := Span(t, Digit);
    if m > 0 && SkipSpace(t[m..]) == ")" then Some(t[..m]) else None
  }

  function ParseCommaPart(t: string): Option<string> {
    var u := SkipSpace(t);
    if |u| == 0 || u[0] != ',' then None
    else ParseDigitsPart(SkipSpace(u[1..]))
  }

  function ParseColumnPart(t: string): Option<(string, string)> {
    var n := Span(t, Letter);
    if n == 0 then None
    else
      match ParseCommaPart(t[n..])
      case None => None
      case Some(digits) => Some((t[..n], digits))
  }

  /**
    `Pattern.matcher(text).matches()` for the lookup pattern: the column-name group and the
    row-digit group, or None when the whole text does not match.
   */
  function ParseLookup(s: string): Option<(string, string)> {
    if !StartsWith(s, Prefix) then None
    else ParseColumnPart(SkipSpace(s[|Prefix|..]))
  }

  lemma {:induction false} DigitsPartSound(t: string)
    requires ParseDigitsPart(t).Some?
    ensures DigitsPart(t, ParseDigitsPart(t).value)
  {
    var m := Span(t, Digit);
    var w := Skipped(t[m..], SkipSpace(t[m..]));
    assert t == t[..m] + w + ")";
  }

  lemma {:induction false} DigitsPartComplete(t: string, digits: string)
    requires DigitsPart(t, digits)
    ensures ParseDigitsPart(t) == Some(digits)
  {
    var w: string :| AllSpace(w) && t == digits + w + ")";
    assert t == digits + (w + ")");
    SpanOfConcat(digits, w + ")", Digit);
    assert t[|digits|..] == w + ")" && t[..|digits|] == digits;
    SkipSpaceOfConcat(w, ")");
  }

  lemma {:induction false} CommaPartSound(t: string, digits: string)
    requires ParseCommaPart(t) == Some(digits)
    ensures CommaPart(t, digits)
  {
    var w1, w2, rest := CommaPieces(t);
    DigitsPartSound(rest);
    CommaPartIntro(t, w1, w2, rest, digits);
  }

  /** The blanks, comma, blanks and remainder ParseCommaPart splits an accepted text into. */
  lemma {:induction false} CommaPieces(t: string) returns (w1: string, w2: string, rest: string)
    requires ParseCommaPart(t).Some?
    ensures AllSpace(w1) && AllSpace(w2) && t == w1 + ("," + (w2 + rest))
    ensures ParseDigitsPart(rest) == ParseCommaPart(t)
  {
    var u := SkipSpace(t);
    w1 := Skipped(t, u);
    rest := SkipSpace(u[1..]);
    w2 := Skipped(u[1..], rest);
    Glue(t, w1, u, w2, rest);
  }

  lemma {:induction false} Glue(t: string, w1: string, u: string, w2: string, rest: string)
    requires t == w1 + u && |u| > 0 && u[0] == ',' && u[1..] == w2 + rest
    ensures t == w1 + ("," + (w2 + rest))
  {
    assert u == "," + u[1..];
  }

  lemma {:induction false} CommaPartIntro(t: string, w1: string, w2: string, rest: string, digits: string)
    requires AllSpace(w1) && AllSpace(w2) && t == w1 + ("," + (w2 + rest)) && DigitsPart(rest, digits)
    ensures CommaPart(t, digits)
  {
    ConcatAssoc(w1, ",", w2, rest);
  }

  lemma {:induction false} CommaPartComplete(t: string, digits: string)
    requires CommaPart(t, digits)
    ensures ParseCommaPart(t) == Some(digits)
  {
    var w1: string, w2: string, rest: string :|
      AllSpace(w1) && AllSpace(w2) && t == w1 + "," + w2 + rest && DigitsPart(rest, digits);
    var w: string :| AllSpace(w) && rest == digits + w + ")";
    assert rest[0] == digits[0];
    var u := "," + (w2 + rest);
    ConcatAssoc(w1, ",", w2, rest);
    SkipSpaceOfConcat(w1, u);
    assert u[1..] == w2 + rest;
    SkipSpaceOfConcat(w2, rest);
    DigitsPartComplete(rest, digits);
  }

  lemma {:induction false} ColumnPartSound(t: string, column: string, digits: string)
    requires ParseColumnPart(t) == Some((column, digits))
    ensures ColumnPart(t, column, digits)
  {
    var n := Span(t, Letter);
    var rest := t[n..];
    assert n > 0 && column == t[..n] && ParseCommaPart(rest) == Some(digits);
    assert AllLetters(column) by {
      forall i | 0 <= i < n ensures IsAsciiLetter(column[i]) {
        assert In(t[i], Letter);
      }
    }
    CommaPartSound(rest, digits);
    SplitAt(t, n);
    ColumnPartIntro(t, column, rest, digits);
  }

  lemma {:induction false} ColumnPartIntro(t: string, column: string, rest: string, digits: string)
    requires |column| > 0 && AllLetters(column) && t == column + rest && CommaPart(rest, digits)
    ensures ColumnPart(t, column, digits)
  {
  }

  lemma {:induction false} ColumnPartComplete(t: string, column: string, digits: string)
    requires ColumnPart(t, column, digits)
    ensures ParseColumnPart(t) == Some((column, digits))
  {
    var rest: string :| t == column + rest && CommaPart(rest, digits);
    var w1: string, w2: string, r2: string :|
      AllSpace(w1) && AllSpace(w2) && rest == w1 + "," + w2 + r2 && DigitsPart(r2, digits);
    assert rest[0] == (if w1 == [] then ',' else w1[0]);
    SpanOfConcat(column, rest, Letter);
    assert t[|column|..] == rest && t[..|column|] == column;
    CommaPartComplete(rest, digits);
  }

  /** Every pair the parser returns is a match of the pattern. */
  lemma {:induction false} ParseLookupSound(s: string)
    requires ParseLookup(s).Some?
    ensures MatchesLookup(s, ParseLookup(s).value.0, ParseLookup(s).value.1)
  {
    var t := s[|Prefix|..];
    var rest := SkipSpace(t);
    var w := Skipped(t, rest);
    var groups := ParseColumnPart(rest).value;
    assert ParseLookup(s).value == groups;
    ColumnPartSound(rest, groups.0, groups.1);
    SplitAt(s, |Prefix|);
    assert s[..|Prefix|] == Prefix;
    MatchesLookupIntro(s, w, rest, groups.0, groups.1);
  }

  lemma {:induction false} MatchesLookupIntro(s: string, w: string, rest: string, column: string, digits: string)
    requires AllSpace(w) && s == Prefix + (w + rest) && ColumnPart(rest, column, digits)
    ensures MatchesLookup(s, column, digits)
  {
    assert s == Prefix + w + rest;
  }

  /** Every match of the pattern is found by the parser, with the same groups. */
  lemma {:induction false} ParseLookupComplete(s: string, column: string, digits: string)
    requires MatchesLookup(s, column, digits)
    ensures ParseLookup(s) == Some((column, digits))
  {
    var w: string, rest: string :| AllSpace(w) && s == Prefix + w + rest && ColumnPart(rest, column, digits);
    assert StartsWith(s, Prefix);
    assert s[|Prefix|..] == w + rest;
    assert IsAsciiLetter(rest[0]);
    SkipSpaceOfConcat(w, rest);
    ColumnPartComplete(rest, column, digits);
  }

  /** The parser and the pattern agree in both directions. */
  lemma {:induction false} ParseLookupExact(s: string, column: string, digits: string)
    ensures ParseLookup(s) == Some((column, digits)) <==> MatchesLookup(s, column, digits)
  {
    if ParseLookup(s) == Some((column, digits)) {
      ParseLookupSound(s);
    }
    if MatchesLookup(s, column, digits) {
      ParseLookupComplete(s, column, digits);
    }
  }
}

=== FILE: propagation.dfy ===
/**
  Propagation after a write: every lookup cell referencing the written coordinate takes its
  value, and the same happens recursively for the cells referencing those. The store is scanned
  in its iteration order (a parameter: the key order of the underlying hash map), and a set of
  visited keys stops the recursion.
 */
module Propagation {
  import opened Wrappers
  import opened Cells
  import opened Sheets
  import opened RefGraph

  /** The keys of the coordinates the stored cells carry (the store's keys, on a well-formed store). */
  function CoordinateKeys(cells: Store): set<string> {
    set k | k in cells :: CellKey(cells[k].column, cells[k].row)
  }

  /** `b` differs from `a` in cell values only: same keys, coordinates and lookup descriptors. */
  predicate SameShape(a: Store, b: Store) {
    && a.Keys == b.Keys
    && forall k :: k in a ==> b[k] == a[k].(value := b[k].value)
  }

  lemma SameShapeTransitive(a: Store, b: Store, c: Store)
    requires SameShape(a, b) && SameShape(b, c)
    ensures SameShape(a, c)
  {
  }

  lemma SameShapeCoordinateKeys(a: Store, b: Store)
    requires SameShape(a, b)
    ensures CoordinateKeys(a) == CoordinateKeys(b)
  {
    forall x | x in CoordinateKeys(b) ensures x in CoordinateKeys(a) {
      var k :| k in b && x == CellKey(b[k].column, b[k].row);
      assert b[k].column == a[k].column && b[k].row == a[k].row;
    }
  }

  /** Cardinality of a set difference shrinks as the subtracted set grows. */
  lemma DifferenceShrinks(a: set<string>, v: set<string>, w: set<string>)
    requires v <= w
    ensures |a - w| <= |a - v|
  {
    assert a - w <= a - v;
    SubsetCardinality(a - w, a - v);
  }

  lemma SubsetCardinality(x: set<string>, y: set<string>)
    requires x <= y
    ensures |x| <= |y|
  {
    assert y == x + (y - x);
  }

  /** The test the scan applies to each stored cell: a lookup cell referencing `column,row`. */
  predicate DependsOn(c: Cell, column: string, row: int) {
    IsLookup(c) && c.referencedColumn == Some(column) && c.referencedRow == Some(row)
  }

  /**
    `updateDependentCells`: unless `column,row` was already visited, mark it visited and scan
    the store for the cells that depend on it. Only values change, and the visited set grows.
   */
  function UpdateDependents(cells: Store, order: seq<string>, column: string, row: int, visited: set<string>)
    : (r: (Store, set<string>))
    ensures SameShape(cells, r.0)
    ensures visited + {CellKey(column, row)} <= r.1
    ensures CellKey(column, row) in visited ==> r == (cells, visited)
    decreases |CoordinateKeys(cells) + {CellKey(column, row)} - visited|, 0, 0
  {
    var key := CellKey(column, row);
    if key in visited then (cells, visited)
    else
      assert (CoordinateKeys(cells) + {key}) - visited == (CoordinateKeys(cells) - (visited + {key})) + {key};
      Scan(cells, order, column, row, 0, visited + {key})
  }

  /**
    The loop over the store in iteration order from position `i`: each cell depending on
    `column,row` takes that coordinate's current value and has its own dependents updated.
   */
  function Scan(cells: Store, order: seq<string>, column: string, row: int, i: nat, visited: set<string>)
    : (r: (Store, set<string>))
    requires i <= |order|
    ensures SameShape(cells, r.0)
    ensures visited <= r.1
    decreases |CoordinateKeys(cells) - visited|, 1, |order| - i
  {
    if i == |order| then (cells, visited)
    else
      var k := order[i];
      if k in cells && DependsOn(cells[k], column, row) && CellAt(cells, column, row).Some? then
        var dependent := cells[k];
        var updated := cells[k := SetValue(dependent, CellAt(cells, column, row).value.value)];
        SameShapeCoordinateKeys(cells, updated);
        assert CellKey(dependent.column, dependent.row) in CoordinateKeys(cells);
        assert CoordinateKeys(updated) + {CellKey(dependent.column, dependent.row)} == CoordinateKeys(cells);
        var deeper := UpdateDependents(updated, order, dependent.column, dependent.row, visited);
        SameShapeTransitive(cells, updated, deeper.0);
        SameShapeCoordinateKeys(cells, deeper.0);
        DifferenceShrinks(CoordinateKeys(cells), visited, deeper.1);
        var rest := Scan(deeper.0, order, column, row, i + 1, deeper.1);
        SameShapeTransitive(cells, deeper.0, rest.0);
        rest
      else
        Scan(cells, order, column, row, i + 1, visited)
  }

  /*
    Correctness on a well-formed acyclic store. The cells a write to `k` must refresh are the
    keys whose reference chain reaches `k`; with `k` itself they form the tree below `k`, and the
    trees of two different cells referencing the same key are disjoint.
  */

  /** The keys whose chain reaches `k`, together with `k`. */
  ghost function Tree(g: Graph, k: string): set<string> {
    {k} + set a | a in g.Keys && Reaches(g, a, k)
  }

  /** The cells depending on `k`, directly or through other lookup cells. */
  ghost function Dependents(g: Graph, k: string): set<string> {
    Tree(g, k) - {k}
  }

  lemma TreeMember(g: Graph, k: string, a: string)
    ensures a in Tree(g, k) <==> Reaches(g, a, k)
  {
    if a == k {
      assert ReachesIn(g, a, k, 0);
    } else if a !in g {
      ReachesFromLeaf(g, a, k);
    }
  }

  /** The trees of the cells referencing `p`, taken in iteration order from position `i`. */
  ghost function SubFrom(g: Graph, order: seq<string>, p: string, i: nat): set<string>
    decreases |order| - i
  {
    if i >= |order| then {}
    else (if order[i] in g && g[order[i]] == p then Tree(g, order[i]) else {}) + SubFrom(g, order, p, i + 1)
  }

  lemma {:induction false} SubFromMember(g: Graph, order: seq<string>, p: string, i: nat, a: string)
    requires i <= |order|
    ensures a in SubFrom(g, order, p, i) <==>
              exists j :: i <= j < |order| && order[j] in g && g[order[j]] == p && a in Tree(g, order[j])
    decreases |order| - i
  {
    if i < |order| {
      SubFromMember(g, order, p, i + 1, a);
    }
  }

  /** Every cell's dependents are the trees of the cells referencing it, in any iteration order. */
  lemma DependentsBySubFrom(g: Graph, order: seq<string>, p: string)
    requires Acyclic(g)
    requires forall k :: k in g ==> k in order
    ensures SubFrom(g, order, p, 0) == Dependents(g, p)
  {
    forall a | a in SubFrom(g, order, p, 0) ensures a in Dependents(g, p) {
      SubFromMember(g, order, p, 0, a);
      var j :| 0 <= j < |order| && order[j] in g && g[order[j]] == p && a in Tree(g, order[j]);
      TreeMember(g, order[j], a);
      var n: nat :| ReachesIn(g, a, order[j], n);
      ReachesInConcat(g, a, order[j], p, n, 1);
      TreeMember(g, p, a);
    }
    forall a | a in Dependents(g, p) ensures a in SubFrom(g, order, p, 0) {
      TreeMember(g, p, a);
      var n: nat :| ReachesIn(g, a, p, n);
      var c := ReachesInLastStep(g, a, p, n);
      var j :| 0 <= j < |order| && order[j] == c;
      TreeMember(g, c, a);
      SubFromMember(g, order, p, 0, a);
    }
  }

  /** A cell is not below any of the cells referencing it. */
  lemma ParentNotBelowChild(g: Graph, d: string)
    requires Acyclic(g) && d in g
    ensures g[d] !in Tree(g, d)
  {
    TreeMember(g, d, g[d]);
    if Reaches(g, g[d], d) {
      var n: nat :| ReachesIn(g, g[d], d, n);
      assert ReachesIn(g, d, d, n + 1);
    }
  }

  /** Two different cells referencing the same key have disjoint trees. */
  lemma SiblingsDisjoint(g: Graph, d1: string, d2: string)
    requires Acyclic(g) && d1 in g && d2 in g && g[d1] == g[d2] && d1 != d2
    ensures Tree(g, d1) !! Tree(g, d2)
  {
    forall a | a in Tree(g, d1) ensures a !in Tree(g, d2) {
      if a in Tree(g, d2) {
        TreeMember(g, d1, a);
        TreeMember(g, d2, a);
        var n1: nat :| ReachesIn(g, a, d1, n1);
        var n2: nat :| ReachesIn(g, a, d2, n2);
        if n1 <= n2 {
          ChainThroughSibling(g, a, d1, d2, n1, n2);
        } else {
          ChainThroughSibling(g, a, d2, d1, n2, n1);
        }
        assert false;
      }
    }
  }

  /** Two different cells referencing the same key, both reached from one key, close a cycle. */
  lemma ChainThroughSibling(g: Graph, a: string, d1: string, d2: string, n1: nat, n2: nat)
    requires d1 in g && d2 in g && g[d1] == g[d2] && d1 != d2
    requires n1 <= n2 && ReachesIn(g, a, d1, n1) && ReachesIn(g, a, d2, n2)
    ensures !Acyclic(g)
  {
    ReachesInSplit(g, a, d1, d2, n1, n2);
    var m := n2 - n1;
    if m > 0 {
      var p := g[d1];
      assert ReachesIn(g, d2, p, 1);
      ReachesInConcat(g, d1, d2, p, m, 1);
      assert ReachesIn(g, d1, p, 1);
      ReachesInSplit(g, d1, p, p, 1, m + 1);
      assert ReachesIn(g, p, p, m);
    }
  }

  /** Sets the value of every cell whose key is in `s`. */
  function SetValues(cells: Store, s: set<string>, v: Value): (r: Store)
    ensures SameShape(cells, r)
    ensures forall k :: k in r ==> r[k].value == if k in s then v else cells[k].value
  {
    map k | k in cells :: if k in s then SetValue(cells[k], v) else cells[k]
  }

  lemma SetValuesCompose(cells: Store, s: set<string>, t: set<string>, v: Value)
    ensures SetValues(SetValues(cells, s, v), t, v) == SetValues(cells, s + t, v)
  {
  }

  lemma SetValuesNone(cells: Store, v: Value)
    ensures SetValues(cells, {}, v) == cells
  {
  }

  /** The setting of the correctness lemmas: a well-formed acyclic store, its graph and an iteration order. */
  ghost predicate Consistent(cells: Store, order: seq<string>, g: Graph) {
    WellFormed(cells) && g == Links(cells) && Acyclic(g) && Enumerates(order, cells.Keys)
  }

  lemma ConsistentAfterValues(a: Store, b: Store, order: seq<string>, g: Graph)
    requires Consistent(a, order, g) && SameShape(a, b)
    ensures Consistent(b, order, g)
  {
    SameShapeLinks(a, b);
  }

  /** Changing values only keeps the store well-formed and keeps its reference graph. */
  lemma SameShapeLinks(a: Store, b: Store)
    requires SameShape(a, b)
    ensures WellFormed(a) ==> WellFormed(b)
    ensures Links(a) == Links(b)
  {
  }

  /**
    On a well-formed acyclic store, propagating from a stored coordinate whose tree is not yet
    visited sets every dependent to that coordinate's value, changes nothing else, and visits
    exactly its tree.
   */
  lemma {:induction false} UpdateDependentsCorrect(cells: Store, order: seq<string>, column: string, row: int,
                                                   visited: set<string>, g: Graph)
    requires Consistent(cells, order, g)
    requires CellKey(column, row) in cells
    requires visited !! Tree(g, CellKey(column, row))
    ensures UpdateDependents(cells, order, column, row, visited)
            == (SetValues(cells, Dependents(g, CellKey(column, row)), cells[CellKey(column, row)].value),
                visited + Tree(g, CellKey(column, row)))
    decreases |cells.Keys - visited|, 0, 0
  {
    var key := CellKey(column, row);
    TreeSplit(cells, order, g, key, visited);
    UpdateDependentsAtUnvisited(cells, order, column, row, visited);
    RemoveOneShrinks(cells.Keys, visited, key);
    ScanCorrect(cells, order, column, row, 0, visited + {key}, g);
  }

  /** The tree below a key is the key and its dependents, which are the trees of its referencing cells. */
  lemma TreeSplit(cells: Store, order: seq<string>, g: Graph, key: string, visited: set<string>)
    requires Consistent(cells, order, g)
    requires visited !! Tree(g, key)
    ensures key !in visited
    ensures SubFrom(g, order, key, 0) == Dependents(g, key)
    ensures (visited + {key}) !! SubFrom(g, order, key, 0)
    ensures visited + {key} + Dependents(g, key) == visited + Tree(g, key)
  {
    assert key in Tree(g, key);
    DependentsBySubFrom(g, order, key);
  }

  lemma RemoveOneShrinks(a: set<string>, v: set<string>, x: string)
    requires x in a && x !in v
    ensures |a - (v + {x})| < |a - v|
  {
    assert a - v == (a - (v + {x})) + {x};
  }

  lemma UpdateDependentsAtUnvisited(cells: Store, order: seq<string>, column: string, row: int, visited: set<string>)
    requires CellKey(column, row) !in visited
    ensures UpdateDependents(cells, order, column, row, visited)
            == Scan(cells, order, column, row, 0, visited + {CellKey(column, row)})
  {
  }

  lemma {:induction false} ScanCorrect(cells: Store, order: seq<string>, column: string, row: int, i: nat,
                                       visited: set<string>, g: Graph)
    requires i <= |order|
    requires Consistent(cells, order, g)
    requires CellKey(column, row) in cells
    requires visited !! SubFrom(g, order, CellKey(column, row), i)
    ensures Scan(cells, order, column, row, i, visited)
            == (SetValues(cells, SubFrom(g, order, CellKey(column, row), i), cells[CellKey(column, row)].value),
                visited + SubFrom(g, order, CellKey(column, row), i))
    decreases |cells.Keys - visited|, 1, |order| - i
  {
    var key := CellKey(column, row);
    if i == |order| {
      ScanAtEnd(cells, order, column, row, i, visited, g);
    } else {
      DependsOnIsEdge(cells, g, order[i], column, row);
      if order[i] in g && g[order[i]] == key {
        ScanMatchCorrect(cells, order, column, row, i, visited, g);
      } else {
        ScanAtOther(cells, order, column, row, i, visited, g);
        ScanCorrect(cells, order, column, row, i + 1, visited, g);
      }
    }
  }

  lemma ScanAtEnd(cells: Store, order: seq<string>, column: string, row: int, i: nat, visited: set<string>, g: Graph)
    requires i == |order| && CellKey(column, row) in cells
    ensures Scan(cells, order, column, row, i, visited)
            == (SetValues(cells, SubFrom(g, order, CellKey(column, row), i), cells[CellKey(column, row)].value),
                visited + SubFrom(g, order, CellKey(column, row), i))
  {
    SetValuesNone(cells, cells[CellKey(column, row)].value);
    assert visited + {} == visited;
  }

  lemma ScanAtOther(cells: Store, order: seq<string>, column: string, row: int, i: nat, visited: set<string>, g: Graph)
    requires i < |order| && order[i] in cells
    requires !(order[i] in g && g[order[i]] == CellKey(column, row))
    requires DependsOn(cells[order[i]], column, row) <==> order[i] in g && g[order[i]] == CellKey(column, row)
    ensures Scan(cells, order, column, row, i, visited) == Scan(cells, order, column, row, i + 1, visited)
    ensures SubFrom(g, order, CellKey(column, row), i) == SubFrom(g, order, CellKey(column, row), i + 1)
  {
  }

  /** On a well-formed store the scan's test is the reference edge to the scanned coordinate. */
  lemma DependsOnIsEdge(cells: Store, g: Graph, d: string, column: string, row: int)
    requires WellFormed(cells) && g == Links(cells) && d in cells
    ensures DependsOn(cells[d], column, row) <==> d in g && g[d] == CellKey(column, row)
  {
    var c := cells[d];
    if HasReference(c) {
      CellKeyInjective(c.referencedColumn.value, c.referencedRow.value, column, row);
    }
  }

  /** The step of ScanCorrect at a cell that references the scanned coordinate. */
  lemma {:induction false} ScanMatchCorrect(cells: Store, order: seq<string>, column: string, row: int, i: nat,
                                            visited: set<string>, g: Graph)
    requires i < |order|
    requires Consistent(cells, order, g)
    requires CellKey(column, row) in cells
    requires order[i] in g && g[order[i]] == CellKey(column, row)
    requires DependsOn(cells[order[i]], column, row)
    requires visited !! SubFrom(g, order, CellKey(column, row), i)
    ensures Scan(cells, order, column, row, i, visited)
            == (SetValues(cells, SubFrom(g, order, CellKey(column, row), i), cells[CellKey(column, row)].value),
                visited + SubFrom(g, order, CellKey(column, row), i))
    decreases |cells.Keys - visited|, 1, |order| - i, 1
  {
    var key := CellKey(column, row);
    var v := cells[key].value;
    var d := order[i];
    var sub := SubFrom(g, order, key, i + 1);
    var tree := Tree(g, d);
    ScanStepTree(order, key, i, visited, g);
    var deeper := DependentUpdated(cells, order, column, row, i, visited, g);
    ScanAtMatch(cells, order, column, row, i, visited);
    ParentNotBelowChild(g, d);
    ConsistentAfterValues(cells, deeper.0, order, g);
    DifferenceShrinks(cells.Keys, visited, visited + tree);
    ScanCorrect(deeper.0, order, column, row, i + 1, visited + tree, g);
    assert deeper.0[key].value == v;
    CombineSteps(cells, tree, sub, v, visited, deeper, Scan(deeper.0, order, column, row, i + 1, deeper.1));
  }

  /** Setting a tree, then the trees after it, is setting their union; the visited sets add up the same way. */
  lemma CombineSteps(cells: Store, tree: set<string>, sub: set<string>, v: Value, visited: set<string>,
                     deeper: (Store, set<string>), rest: (Store, set<string>))
    requires deeper == (SetValues(cells, tree, v), visited + tree)
    requires rest == (SetValues(deeper.0, sub, v), deeper.1 + sub)
    ensures rest == (SetValues(cells, tree + sub, v), visited + (tree + sub))
  {
    SetValuesCompose(cells, tree, sub, v);
    assert rest.0 == SetValues(cells, tree + sub, v);
    assert rest.1 == visited + (tree + sub);
  }

  /**
    At a cell `d` referencing the scanned coordinate, the scan gives `d` the coordinate's value
    and updates the tree below `d`; the result is the whole tree of `d` set to that value.
   */
  lemma {:induction false} DependentUpdated(cells: Store, order: seq<string>, column: string, row: int, i: nat,
                                            visited: set<string>, g: Graph)
      returns (deeper: (Store, set<string>))
    requires i < |order|
    requires Consistent(cells, order, g)
    requires CellKey(column, row) in cells
    requires order[i] in g && g[order[i]] == CellKey(column, row)
    requires DependsOn(cells[order[i]], column, row)
    requires visited !! Tree(g, order[i])
    ensures deeper == UpdateDependents(cells[order[i] := SetValue(cells[order[i]], cells[CellKey(column, row)].value)],
                                       order, cells[order[i]].column, cells[order[i]].row, visited)
    ensures deeper == (SetValues(cells, Tree(g, order[i]), cells[CellKey(column, row)].value),
                       visited + Tree(g, order[i]))
    decreases |cells.Keys - visited|, 1, |order| - i, 0
  {
    var v := cells[CellKey(column, row)].value;
    var d := order[i];
    var dependent := cells[d];
    var updated := cells[d := SetValue(dependent, v)];
    deeper := UpdateDependents(updated, order, dependent.column, dependent.row, visited);
    UpdatedOneConsistent(cells, order, g, d, v);
    assert updated.Keys == cells.Keys && CellKey(dependent.column, dependent.row) == d;
    UpdateDependentsCorrect(updated, order, dependent.column, dependent.row, visited, g);
    SetValuesAfterUpdate(cells, d, Tree(g, d), v);
  }

  /** Setting the value of one stored cell keeps the setting, and the cell sits at its own key. */
  lemma UpdatedOneConsistent(cells: Store, order: seq<string>, g: Graph, d: string, v: Value)
    requires Consistent(cells, order, g) && d in cells
    ensures Consistent(cells[d := SetValue(cells[d], v)], order, g)
    ensures d == CellKey(cells[d].column, cells[d].row)
    ensures cells[d := SetValue(cells[d], v)].Keys == cells.Keys
    ensures d in Tree(g, d)
    ensures cells[d := SetValue(cells[d], v)][d].value == v
  {
    ConsistentAfterValues(cells, cells[d := SetValue(cells[d], v)], order, g);
  }

  /** One step of the scan at a cell that depends on the scanned coordinate. */
  lemma ScanAtMatch(cells: Store, order: seq<string>, column: string, row: int, i: nat, visited: set<string>)
    requires i < |order| && order[i] in cells && CellKey(column, row) in cells
    requires DependsOn(cells[order[i]], column, row)
    ensures var updated := cells[order[i] := SetValue(cells[order[i]], cells[CellKey(column, row)].value)];
            var deeper := UpdateDependents(updated, order, cells[order[i]].column, cells[order[i]].row, visited);
            Scan(cells, order, column, row, i, visited) == Scan(deeper.0, order, column, row, i + 1, deeper.1)
  {
    assert CellAt(cells, column, row) == Some(cells[CellKey(column, row)]);
  }

  /** Setting one cell and then the rest of a set is setting the whole set. */
  lemma SetValuesAfterUpdate(cells: Store, d: string, s: set<string>, v: Value)
    requires d in cells && d in s
    ensures SetValues(cells[d := SetValue(cells[d], v)], s - {d}, v) == SetValues(cells, s, v)
  {
  }

  /** At a cell referencing `p`, its tree and the trees of the later cells referencing `p` are disjoint. */
  lemma ScanStepTree(order: seq<string>, p: string, i: nat, visited: set<string>, g: Graph)
    requires i < |order| && Acyclic(g)
    requires forall j :: i < j < |order| ==> order[j] != order[i]
    requires order[i] in g && g[order[i]] == p
    requires visited !! SubFrom(g, order, p, i)
    ensures SubFrom(g, order, p, i) == Tree(g, order[i]) + SubFrom(g, order, p, i + 1)
    ensures visited !! Tree(g, order[i])
    ensures (visited + Tree(g, order[i])) !! SubFrom(g, order, p, i + 1)
  {
    forall a | a in Tree(g, order[i]) && a in SubFrom(g, order, p, i + 1) ensures false {
      SubFromMember(g, order, p, i + 1, a);
      var j :| i + 1 <= j < |order| && order[j] in g && g[order[j]] == p && a in Tree(g, order[j]);
      SiblingsDisjoint(g, order[i], order[j]);
    }
  }

  /** Propagation does not depend on the store's iteration order. */
  lemma UpdateDependentsOrderIndependent(cells: Store, order1: seq<string>, order2: seq<string>,
                                         column: string, row: int)
    requires WellFormed(cells) && Acyclic(Links(cells))
    requires Enumerates(order1, cells.Keys) && Enumerates(order2, cells.Keys)
    requires CellKey(column, row) in cells
    ensures UpdateDependents(cells, order1, column, row, {}) == UpdateDependents(cells, order2, column, row, {})
  {
    UpdateDependentsCorrect(cells, order1, column, row, {}, Links(cells));
    UpdateDependentsCorrect(cells, order2, column, row, {}, Links(cells));
  }
}

=== FILE: ref_graph.dfy ===
/**
  The dependency graph a store induces: an edge from each lookup cell's key to the key of the
  cell it references. Every node has at most one outgoing edge, so following references from a
  key traces a single chain.
 */
module RefGraph {
  import opened Cells
  import opened Sheets

  /** At most one outgoing edge per key: the key of the referenced cell. */
  type Graph = map<string, string>

  /** The key a lookup cell references. */
  function RefKey(c: Cell): string
    requires HasReference(c)
  {
    CellKey(c.referencedColumn.value, c.referencedRow.value)
  }

  /** The reference edges of a store. */
  function Links(cells: Store): (g: Graph)
    ensures g.Keys <= cells.Keys
    ensures forall k :: k in g <==> k in cells && HasReference(cells[k])
  {
    map k | k in cells && HasReference(cells[k]) :: RefKey(cells[k])
  }

  /** Following `n` references from `a` arrives at `b`. */
  predicate ReachesIn(g: Graph, a: string, b: string, n: nat)
    decreases n
  {
    if n == 0 then a == b
    else a in g && ReachesIn(g, g[a], b, n - 1)
  }

  /** Following references from `a` eventually arrives at `b` (possibly in zero steps). */
  ghost predicate Reaches(g: Graph, a: string, b: string) {
    exists n: nat :: ReachesIn(g, a, b, n)
  }

  /** Following one or more references from `a` arrives at `b`. */
  ghost predicate ReachesPlus(g: Graph, a: string, b: string) {
    exists n: nat :: n > 0 && ReachesIn(g, a, b, n)
  }

  /** No key gets back to itself by following one or more references. */
  ghost predicate Acyclic(g: Graph) {
    forall k: string, n: nat :: n > 0 ==> !ReachesIn(g, k, k, n)
  }

  /** A key without a reference reaches only itself. */
  lemma ReachesFromLeaf(g: Graph, a: string, b: string)
    requires a !in g
    ensures Reaches(g, a, b) <==> a == b
  {
    if a == b {
      assert ReachesIn(g, a, b, 0);
    }
  }

  /** A key with a reference reaches another key exactly when the key it references does. */
  lemma ReachesThroughEdge(g: Graph, a: string, b: string)
    requires a in g && a != b
    ensures Reaches(g, a, b) <==> Reaches(g, g[a], b)
  {
    if Reaches(g, a, b) {
      var n: nat :| ReachesIn(g, a, b, n);
      assert ReachesIn(g, g[a], b, n - 1);
    }
    if Reaches(g, g[a], b) {
      var n: nat :| ReachesIn(g, g[a], b, n);
      assert ReachesIn(g, a, b, n + 1);
    }
  }

  /** Chains are deterministic: after the same number of steps they are at the same key. */
  lemma {:induction false} ReachesInDeterministic(g: Graph, a: string, b: string, c: string, n: nat)
    requires ReachesIn(g, a, b, n) && ReachesIn(g, a, c, n)
    ensures b == c
    decreases n
  {
    if n > 0 {
      ReachesInDeterministic(g, g[a], b, c, n - 1);
    }
  }

  /** Two chains placed end to end form a chain. */
  lemma {:induction false} ReachesInConcat(g: Graph, a: string, b: string, c: string, i: nat, j: nat)
    requires ReachesIn(g, a, b, i) && ReachesIn(g, b, c, j)
    ensures ReachesIn(g, a, c, i + j)
    decreases i
  {
    if i > 0 {
      ReachesInConcat(g, g[a], b, c, i - 1, j);
    }
  }

  /** A chain that passes `b` after `i` steps continues from `b` for the remaining steps. */
  lemma {:induction false} ReachesInSplit(g: Graph, a: string, b: string, c: string, i: nat, n: nat)
    requires i <= n && ReachesIn(g, a, b, i) && ReachesIn(g, a, c, n)
    ensures ReachesIn(g, b, c, n - i)
    decreases i
  {
    if i > 0 {
      ReachesInSplit(g, g[a], b, c, i - 1, n - 1);
    }
  }

  /** The last step of a non-empty chain enters its end from a key whose edge points there. */
  lemma {:induction false} ReachesInLastStep(g: Graph, a: string, b: string, n: nat) returns (c: string)
    requires n > 0 && ReachesIn(g, a, b, n)
    ensures ReachesIn(g, a, c, n - 1) && c in g && g[c] == b
    decreases n
  {
    if n == 1 {
      c := a;
    } else {
      c := ReachesInLastStep(g, g[a], b, n - 1);
    }
  }

  /**
    Redirecting or removing the edge of `x` only matters for chains that pass `x`: a chain in the
    changed graph either is a chain of the old graph, or it reaches `x` and then goes on from there.
   */
  lemma {:induction false} ReachesInAfterEdgeChange(g: Graph, h: Graph, x: string, a: string, b: string, n: nat)
      returns (i: nat)
    requires forall k :: k != x ==> (k in g <==> k in h) && (k in g ==> g[k] == h[k])
    requires ReachesIn(h, a, b, n)
    ensures ReachesIn(g, a, b, n) || (i <= n && ReachesIn(h, a, x, i) && ReachesIn(h, x, b, n - i))
    decreases n
  {
    if n == 0 || a == x {
      i := 0;
    } else {
      var j := ReachesInAfterEdgeChange(g, h, x, h[a], b, n - 1);
      i := j + 1;
    }
  }

  /** A chain to `x` in the changed graph is a chain to `x` in the old graph, up to its first visit of `x`. */
  lemma {:induction false} ReachesTargetAfterEdgeChange(g: Graph, h: Graph, x: string, a: string, n: nat)
      returns (i: nat)
    requires forall k :: k != x ==> (k in g <==> k in h) && (k in g ==> g[k] == h[k])
    requires ReachesIn(h, a, x, n)
    ensures i <= n && ReachesIn(g, a, x, i)
    decreases n
  {
    if n == 0 || a == x {
      i := 0;
    } else {
      var j := ReachesTargetAfterEdgeChange(g, h, x, h[a], n - 1);
      i := j + 1;
    }
  }

  /**
    Giving `x` a new edge to `e` (or no edge) keeps an acyclic graph acyclic, provided `e` did not
    already lead back to `x`. This is the fact the commit-time cycle check relies on.
   */
  lemma AcyclicAfterEdgeChange(g: Graph, h: Graph, x: string)
    requires Acyclic(g)
    requires forall k :: k != x ==> (k in g <==> k in h) && (k in g ==> g[k] == h[k])
    requires x in h ==> !Reaches(g, h[x], x)
    ensures Acyclic(h)
  {
    forall k: string, n: nat | n > 0
      ensures !ReachesIn(h, k, k, n)
    {
      if ReachesIn(h, k, k, n) {
        var i := ReachesInAfterEdgeChange(g, h, x, k, k, n);
        if !ReachesIn(g, k, k, n) {
          // The cycle passes x, so x gets back to itself in n steps.
          ReachesInConcat(h, x, k, x, n - i, i);
          assert ReachesIn(h, x, x, n);
          var j := ReachesTargetAfterEdgeChange(g, h, x, h[x], n - 1);
          assert Reaches(g, h[x], x);
        }
      }
    }
  }

  /** Following `n` references from `a` arrives at `b` without passing `t` before the last step. */
  predicate ReachesAvoiding(g: Graph, a: string, b: string, t: string, n: nat)
    decreases n
  {
    if n == 0 then a == b
    else a in g && a != t && ReachesAvoiding(g, g[a], b, t, n - 1)
  }

  /** A chain that avoids `t` is a chain. */
  lemma {:induction false} AvoidingReaches(g: Graph, a: string, b: string, t: string, n: nat)
    requires ReachesAvoiding(g, a, b, t, n)
    ensures ReachesIn(g, a, b, n)
    decreases n
  {
    if n > 0 {
      AvoidingReaches(g, g[a], b, t, n - 1);
    }
  }

  /** Two chains avoiding `t`, placed end to end, form a chain avoiding `t`. */
  lemma {:induction false} AvoidingConcat(g: Graph, a: string, b: string, c: string, t: string, i: nat, j: nat)
    requires ReachesAvoiding(g, a, b, t, i) && ReachesAvoiding(g, b, c, t, j)
    ensures ReachesAvoiding(g, a, c, t, i + j)
    decreases i
  {
    if i > 0 {
      AvoidingConcat(g, g[a], b, c, t, i - 1, j);
    }
  }

  /** Every key a chain avoiding `t` passes before its last step differs from `t`. */
  lemma {:induction false} AvoidingPrefix(g: Graph, a: string, b: string, t: string, n: nat, c: string, m: nat)
    requires ReachesAvoiding(g, a, b, t, n) && m < n && ReachesIn(g, a, c, m)
    ensures c != t
    decreases m
  {
    if m > 0 {
      AvoidingPrefix(g, g[a], b, t, n - 1, c, m - 1);
    }
  }

  /**
    A key that comes back to itself without passing `t` never reaches `t`: its chain goes round
    the same cycle forever.
   */
  lemma {:induction false} CycleAvoids(g: Graph, a: string, t: string, n: nat, m: nat)
    requires n > 0 && ReachesAvoiding(g, a, a, t, n)
    ensures !ReachesIn(g, a, t, m)
    decreases m
  {
    if ReachesIn(g, a, t, m) {
      if m < n {
        AvoidingPrefix(g, a, a, t, n, t, m);
      } else {
        AvoidingReaches(g, a, a, t, n);
        ReachesInSplit(g, a, a, t, n, m);
        CycleAvoids(g, a, t, n, m - n);
      }
    }
  }
}

=== FILE: service.dfy ===
/**
  The spreadsheet service: a registry of sheets by id, sheet creation and lookup, and the write
  path `setCellValue` (resolve a lookup or validate a literal, reject cycles, store the cell,
  propagate the new value to its dependents). A rejected write leaves the registry unchanged.
 */
module Service {
  import opened Wrappers
  import opened Text
  import opened Cells
  import opened Sheets
  import opened Errors
  import opened Validation
  import opened LookupSyntax
  import opened RefGraph
  import opened Cycles
  import opened Propagation

  /** The in-memory sheet registry: sheet id to sheet. */
  type Registry = map<string, Sheet>

  /** `createSheet`: registers a new empty sheet under `freshId`, which stands for the random UUID. */
  function CreateSheet(reg: Registry, freshId: string, columns: seq<Column>): (r: (Registry, Sheet))
    ensures r.1.id == freshId && r.1.columns == columns && r.1.cells == map[]
    ensures r.0.Keys == reg.Keys + {freshId} && r.0[freshId] == r.1
    ensures forall id :: id in reg && id != freshId ==> r.0[id] == reg[id]
  {
    var sheet := NewSheet(freshId, columns);
    (reg[freshId := sheet], sheet)
  }

  /** `createSheetWithId`: like CreateSheet, but an id already in use is rejected. */
  function CreateSheetWithId(reg: Registry, id: string, columns: seq<Column>): (r: (Registry, Result<Sheet, Error>))
    ensures r.1.Err? <==> id in reg
    ensures r.1.Err? ==> r.1.error == DuplicateSheetId && r.0 == reg
    ensures r.1.Ok? ==> r.1.value.id == id && r.1.value.columns == columns && r.1.value.cells == map[]
    ensures r.1.Ok? ==> r.0.Keys == reg.Keys + {id} && r.0[id] == r.1.value
    ensures forall other :: other in reg && other != id ==> r.0[other] == reg[other]
  {
    if id in reg then (reg, Err(DuplicateSheetId))
    else
      var sheet := NewSheet(id, columns);
      (reg[id := sheet], Ok(sheet))
  }

  /** `getSheet`: the registered sheet, or None (Java's null) for an unknown id. */
  function GetSheet(reg: Registry, id: string): (r: Option<Sheet>)
    ensures r.None? <==> id !in reg
    ensures r.Some? ==> r.value == reg[id]
  {
    if id in reg then Some(reg[id]) else None
  }

  /** A sheet created under an id is what a later lookup of that id returns. */
  lemma CreateThenGet(reg: Registry, id: string, columns: seq<Column>)
    requires id !in reg
    ensures CreateSheetWithId(reg, id, columns).1.Ok?
    ensures GetSheet(CreateSheetWithId(reg, id, columns).0, id) == Some(NewSheet(id, columns))
    ensures CreateSheetWithId(CreateSheetWithId(reg, id, columns).0, id, columns).1 == Err(DuplicateSheetId)
  {
  }

  /** A written value that the service treats as a lookup expression: text starting with `lookup(`. */
  predicate IsLookupText(value: Value) {
    value.Str? && StartsWith(value.s, Prefix)
  }

  /**
    The coordinate a lookup text references: the column group of the grammar match and the row
    group read by Integer.parseInt, which rejects digits beyond the 32-bit range.
   */
  function LookupTarget(text: string): (r: Result<(string, int), Error>)
    ensures r.Err? ==> r.error in {InvalidLookupFormat, LookupRowOutOfRange}
    ensures r.Ok? ==> StartsWith(text, Prefix)
  {
    match ParseLookup(text)
    case None => Err(InvalidLookupFormat)
    case Some(groups) =>
      match ParseInt(groups.1)
      case None => Err(LookupRowOutOfRange)
      case Some(referencedRow) => Ok((groups.0, referencedRow))
  }

  /** Decimal digits are read by Integer.parseInt as a non-negative number (when in range). */
  lemma ParseDigitsNonNegative(digits: string)
    requires |digits| > 0 && AllDigits(digits)
    ensures ParseInt(digits).Some? ==> ParseInt(digits).value >= 0
  {
    assert IsAsciiDigit(digits[0]);
  }

  /**
    A lookup text is malformed exactly when it matches the grammar for no groups; a match whose
    row digits exceed the int range is rejected as such; otherwise the target is the column group
    and the row group's non-negative value.
   */
  lemma LookupTargetSpec(text: string)
    ensures LookupTarget(text) == Err(InvalidLookupFormat) <==> forall column, digits :: !MatchesLookup(text, column, digits)
    ensures forall column, digits :: MatchesLookup(text, column, digits) ==>
              LookupTarget(text) == match ParseInt(digits)
                                    case None => Err(LookupRowOutOfRange)
                                    case Some(n) => Ok((column, n))
    ensures LookupTarget(text).Ok? ==> LookupTarget(text).value.1 >= 0
  {
    forall column, digits | MatchesLookup(text, column, digits)
      ensures ParseLookup(text) == Some((column, digits))
    {
      ParseLookupExact(text, column, digits);
    }
    match ParseLookup(text)
    case None =>
      forall column, digits ensures !MatchesLookup(text, column, digits) {
        ParseLookupExact(text, column, digits);
      }
    case Some(groups) =>
      ParseLookupSound(text);
      MatchedDigits(text, groups.0, groups.1);
      ParseDigitsNonNegative(groups.1);
  }

  /**
    `processLookupFunction`: the text must name a target, the referenced column must exist and its
    type text must equal the current column's type text exactly. The cell then carries the lookup
    text, the referenced coordinate and the value currently stored there (null when that cell is
    absent).
   */
  function ProcessLookup(columns: seq<Column>, cells: Store, cell: Cell, current: Column, text: string)
      : (r: Result<Cell, Error>)
    ensures r.Err? ==> r.error in {InvalidLookupFormat, LookupRowOutOfRange, ReferencedColumnNotFound, LookupTypeMismatch}
    ensures LookupTarget(text).Err? ==> r == Err(LookupTarget(text).error)
    ensures LookupTarget(text).Ok? ==>
              var (referencedColumn, referencedRow) := LookupTarget(text).value;
              var definition := ColumnByName(columns, referencedColumn);
              && (r == Err(ReferencedColumnNotFound) <==> definition.None?)
              && (r == Err(LookupTypeMismatch) <==> definition.Some? && definition.value.typeName != current.typeName)
              && (r.Ok? ==> r.value.referencedColumn == Some(referencedColumn) && r.value.referencedRow == Some(referencedRow))
    ensures r.Ok? ==> HasReference(r.value) && r.value.lookupFunction == Some(text)
    ensures r.Ok? ==> r.value.column == cell.column && r.value.row == cell.row
    ensures r.Ok? ==> r.value.value == ValueAt(cells, RefKey(r.value))
  {
    match LookupTarget(text)
    case Err(e) => Err(e)
    case Ok(target) =>
      var (referencedColumn, referencedRow) := target;
      match ColumnByName(columns, referencedColumn)
      case None => Err(ReferencedColumnNotFound)
      case Some(definition) =>
        if definition.typeName != current.typeName then Err(LookupTypeMismatch)
        else
          Ok(cell.(lookupFunction := Some(text),
                   referencedColumn := Some(referencedColumn),
                   referencedRow := Some(referencedRow),
                   value := ValueAt(cells, CellKey(referencedColumn, referencedRow))))
  }

  /** The row group of a match is a non-empty run of digits. */
  lemma MatchedDigits(text: string, column: string, digits: string)
    requires MatchesLookup(text, column, digits)
    ensures |digits| > 0 && AllDigits(digits)
  {
    var w: string, rest: string :| AllSpace(w) && text == Prefix + w + rest && ColumnPart(rest, column, digits);
    var tail: string :| rest == column + tail && CommaPart(tail, digits);
    var w1: string, w2: string, r2: string :|
      AllSpace(w1) && AllSpace(w2) && tail == w1 + "," + w2 + r2 && DigitsPart(r2, digits);
  }

  /**
    The cell `setCellValue` is about to commit: for lookup text, the resolved lookup cell; for any
    other value, a literal cell once the value passes the column's type validation.
   */
  function PrepareCell(columns: seq<Column>, cells: Store, column: Column, columnName: string, row: int,
                       value: Value, isDouble: string -> bool): (r: Result<Cell, Error>)
    ensures r.Ok? ==> r.value.column == columnName && r.value.row == row
    ensures r.Ok? && IsLookup(r.value) ==> HasReference(r.value) && r.value.value == ValueAt(cells, RefKey(r.value))
    ensures !IsLookupText(value) ==> (r.Ok? <==> ValidateValueType(column, value, isDouble).Pass?)
    ensures !IsLookupText(value) && r.Ok? ==> r.value == NewCell(columnName, row, value)
    ensures !IsLookupText(value) && r.Err? ==> r.error in {ExpectedBoolean, ExpectedInteger, ExpectedDouble, UnsupportedColumnType}
    ensures IsLookupText(value) && r.Ok? ==> IsLookup(r.value) && r.value.lookupFunction == Some(value.s)
  {
    var cell := NewCell(columnName, row, value);
    if IsLookupText(value) then ProcessLookup(columns, cells, cell, column, value.s)
    else
      match ValidateValueType(column, value, isDouble)
      case Fail(e) => Err(e)
      case Pass => Ok(cell)
  }

  /** Stores a checked cell and propagates its value; `order` is the iteration order of the store after the upsert. */
  function Commit(sheet: Sheet, cell: Cell, order: seq<string>): (r: Sheet)
    ensures r.id == sheet.id && r.columns == sheet.columns
    ensures SameShape(AddCell(sheet, cell).cells, r.cells)
  {
    var added := AddCell(sheet, cell);
    added.(cells := UpdateDependents(added.cells, order, cell.column, cell.row, {}).0)
  }

  /**
    `setCellValue`. The sheet and the column must exist; lookup text is resolved, any other value
    is validated against the column type; a lookup cell must not close a reference cycle. The cell
    is then stored under its key and its dependents are updated. The result is the stored cell;
    `order` is the iteration order of the store once the cell is added, and `isDouble` stands for
    Double.parseDouble's verdict on a text.
   */
  function SetCellValue(reg: Registry, sheetId: string, columnName: string, row: int, value: Value,
                        order: seq<string>, isDouble: string -> bool): (r: (Registry, Result<Cell, Error>))
    ensures r.1.Err? ==> r.0 == reg
    ensures r.1 == Err(SheetNotFound) <==> sheetId !in reg
    ensures sheetId in reg ==>
              (r.1 == Err(ColumnNotFound) <==> ColumnByName(reg[sheetId].columns, columnName).None?)
    ensures r.1.Ok? ==> sheetId in reg && r.0.Keys == reg.Keys
    ensures r.1.Ok? ==> forall id :: id in reg && id != sheetId ==> r.0[id] == reg[id]
    ensures r.1.Ok? ==> r.0[sheetId].id == reg[sheetId].id && r.0[sheetId].columns == reg[sheetId].columns
    ensures r.1.Ok? ==> r.0[sheetId].cells.Keys == reg[sheetId].cells.Keys + {CellKey(columnName, row)}
    ensures r.1.Ok? ==> r.1.value == r.0[sheetId].cells[CellKey(columnName, row)]
    ensures r.1.Ok? ==> r.1.value.column == columnName && r.1.value.row == row
  {
    match GetSheet(reg, sheetId)
    case None => (reg, Err(SheetNotFound))
    case Some(sheet) =>
      match ColumnByName(sheet.columns, columnName)
      case None => (reg, Err(ColumnNotFound))
      case Some(column) =>
        match PrepareCell(sheet.columns, sheet.cells, column, columnName, row, value, isDouble)
        case Err(e) => (reg, Err(e))
        case Ok(cell) =>
          match CheckForCycles(sheet.cells, cell)
          case Fail(e) => (reg, Err(e))
          case Pass =>
            var updated := Commit(sheet, cell, order);
            var key := CellKey(columnName, row);
            assert key in AddCell(sheet, cell).cells;
            (reg[sheetId := updated], Ok(updated.cells[key]))
  }

  /*
    The invariant of every stored sheet. Besides well-formedness and acyclicity, every lookup cell
    holds the value currently stored at the coordinate it references (null for an absent cell).
  */

  ghost predicate Fresh(cells: Store) {
    forall k :: k in cells && HasReference(cells[k]) ==> cells[k].value == ValueAt(cells, RefKey(cells[k]))
  }

  ghost predicate SheetInv(cells: Store) {
    WellFormed(cells) && Acyclic(Links(cells)) && Fresh(cells)
  }

  /** Every registered sheet sits under its own id and keeps the sheet invariant. */
  ghost predicate RegistryInv(reg: Registry) {
    forall id :: id in reg ==> reg[id].id == id && SheetInv(reg[id].cells)
  }

  lemma EmptyStoreInv()
    ensures SheetInv(map[])
  {
    var g := Links(map[]);
    assert g == map[];
    forall k: string, n: nat | n > 0 ensures !ReachesIn(g, k, k, n) {
    }
  }

  lemma CreateSheetKeepsInv(reg: Registry, freshId: string, columns: seq<Column>)
    requires RegistryInv(reg)
    ensures RegistryInv(CreateSheet(reg, freshId, columns).0)
    ensures RegistryInv(CreateSheetWithId(reg, freshId, columns).0)
  {
    EmptyStoreInv();
  }

  /** A key with an edge is not below itself: its referenced key does not lead back to it. */
  lemma EdgeTargetOutsideTree(g: Graph, x: string)
    requires Acyclic(g) && x in g
    ensures g[x] !in Tree(g, x)
  {
    TreeMember(g, x, g[x]);
    if Reaches(g, g[x], x) {
      ReturnMakesCycle(g, x);
      assert false;
    }
  }

  lemma ReturnMakesCycle(g: Graph, x: string)
    requires x in g && Reaches(g, g[x], x)
    ensures !Acyclic(g)
  {
    var n: nat :| ReachesIn(g, g[x], x, n);
    assert ReachesIn(g, x, x, n + 1);
  }

  /** A key other than `x` with an edge depends on `x` exactly when its referenced key is in the tree below `x`. */
  lemma DependentByEdge(g: Graph, x: string, k: string)
    requires k in g && k != x
    ensures k in Dependents(g, x) <==> g[k] in Tree(g, x)
  {
    TreeMember(g, x, k);
    TreeMember(g, x, g[k]);
    ReachesThroughEdge(g, k, x);
  }

  /** The value read at a key after the dependents of `x` took the value `v`. */
  lemma ValueAtAfterSet(cells: Store, s: set<string>, v: Value, t: string)
    ensures ValueAt(SetValues(cells, s, v), t) == if t in s && t in cells then v else ValueAt(cells, t)
  {
  }

  /** The facts about the written store the freshness proof works from. */
  ghost predicate WriteSetting(cells: Store, c: Cell, final: Store) {
    var x := CellKey(c.column, c.row);
    var after := cells[x := c];
    && WellFormed(after)
    && Acyclic(Links(after))
    && Fresh(cells)
    && (HasReference(c) ==> c.value == ValueAt(cells, RefKey(c)))
    && final == SetValues(after, Dependents(Links(after), x), c.value)
  }

  lemma FreshAtWritten(cells: Store, c: Cell, final: Store)
    requires WriteSetting(cells, c, final)
    requires HasReference(c)
    ensures final[CellKey(c.column, c.row)].value == ValueAt(final, RefKey(final[CellKey(c.column, c.row)]))
  {
    var x := CellKey(c.column, c.row);
    var after := cells[x := c];
    var g := Links(after);
    assert g[x] == RefKey(c);
    EdgeTargetOutsideTree(g, x);
    assert x in Tree(g, x);
    ValueAtAfterSet(after, Dependents(g, x), c.value, RefKey(c));
    assert final[x] == c;
  }

  lemma FreshAtDependent(cells: Store, c: Cell, final: Store, k: string)
    requires WriteSetting(cells, c, final)
    requires k in final && HasReference(final[k])
    requires k in Dependents(Links(cells[CellKey(c.column, c.row) := c]), CellKey(c.column, c.row))
    ensures final[k].value == ValueAt(final, RefKey(final[k]))
  {
    var x := CellKey(c.column, c.row);
    var after := cells[x := c];
    var g := Links(after);
    assert k in g && k != x;
    assert RefKey(final[k]) == g[k];
    DependentByEdge(g, x, k);
    ValueAtAfterSet(after, Dependents(g, x), c.value, g[k]);
    if g[k] == x {
      assert ValueAt(after, x) == c.value;
    }
  }

  lemma FreshAtOther(cells: Store, c: Cell, final: Store, k: string)
    requires WriteSetting(cells, c, final)
    requires k in final && HasReference(final[k])
    requires k != CellKey(c.column, c.row)
    requires k !in Dependents(Links(cells[CellKey(c.column, c.row) := c]), CellKey(c.column, c.row))
    ensures final[k].value == ValueAt(final, RefKey(final[k]))
  {
    var x := CellKey(c.column, c.row);
    var after := cells[x := c];
    var g := Links(after);
    assert final[k] == cells[k];
    assert k in g && g[k] == RefKey(cells[k]);
    DependentByEdge(g, x, k);
    assert g[k] != x by {
      assert x in Tree(g, x);
    }
    ValueAtAfterSet(after, Dependents(g, x), c.value, g[k]);
  }

  /** Propagating a committed value keeps every lookup cell holding its referenced value. */
  lemma FreshAfterWrite(cells: Store, c: Cell, final: Store)
    requires WriteSetting(cells, c, final)
    ensures Fresh(final)
  {
    var x := CellKey(c.column, c.row);
    var g := Links(cells[x := c]);
    forall k | k in final && HasReference(final[k])
      ensures final[k].value == ValueAt(final, RefKey(final[k]))
    {
      if k == x {
        assert final[x] == c.(value := final[x].value);
        FreshAtWritten(cells, c, final);
      } else if k in Dependents(g, x) {
        FreshAtDependent(cells, c, final, k);
      } else {
        FreshAtOther(cells, c, final, k);
      }
    }
  }

  /**
    Committing a cell that passed the cycle check into a sheet that keeps the invariant: the new
    store is the old one with the cell at its key and its dependents holding its value, and the
    invariant still holds.
   */
  lemma CommitCorrect(sheet: Sheet, c: Cell, order: seq<string>)
    requires SheetInv(sheet.cells)
    requires IsLookup(c) ==> HasReference(c) && c.value == ValueAt(sheet.cells, RefKey(c))
    requires CheckForCycles(sheet.cells, c).Pass?
    requires Enumerates(order, sheet.cells.Keys + {CellKey(c.column, c.row)})
    ensures var x := CellKey(c.column, c.row);
            var after := sheet.cells[x := c];
            Commit(sheet, c, order).cells == SetValues(after, Dependents(Links(after), x), c.value)
    ensures SheetInv(Commit(sheet, c, order).cells)
  {
    var x := CellKey(c.column, c.row);
    var after := sheet.cells[x := c];
    var g := Links(after);
    assert AddCell(sheet, c).cells == after;
    AddCellWellFormed(sheet, c);
    CommitKeepsAcyclic(sheet.cells, c);
    assert after.Keys == sheet.cells.Keys + {x};
    UpdateDependentsCorrect(after, order, c.column, c.row, {}, g);
    var final := Commit(sheet, c, order).cells;
    assert WriteSetting(sheet.cells, c, final);
    FreshAfterWrite(sheet.cells, c, final);
    SameShapeLinks(after, final);
  }

  /** The write's stages as the source runs them, for a sheet and column that exist. */
  lemma SetCellValueStages(reg: Registry, sheetId: string, columnName: string, row: int, value: Value,
                           order: seq<string>, isDouble: string -> bool)
    requires sheetId in reg && ColumnByName(reg[sheetId].columns, columnName).Some?
    ensures var sheet := reg[sheetId];
            var prepared := PrepareCell(sheet.columns, sheet.cells, ColumnByName(sheet.columns, columnName).value,
                                        columnName, row, value, isDouble);
            var r := SetCellValue(reg, sheetId, columnName, row, value, order, isDouble);
            && (prepared.Err? ==> r.1 == Err(prepared.error))
            && (prepared.Ok? && CheckForCycles(sheet.cells, prepared.value).Fail? ==>
                  r.1 == Err(CheckForCycles(sheet.cells, prepared.value).error))
            && (prepared.Ok? && CheckForCycles(sheet.cells, prepared.value).Pass? ==>
                  r.0 == reg[sheetId := Commit(sheet, prepared.value, order)])
  {
  }

  /**
    A successful write keeps the registry invariant, stores exactly the returned cell at its
    coordinate and gives every cell depending on it, directly or through other lookups, the
    written value; all other cells keep their values.
   */
  lemma SetCellValueCorrect(reg: Registry, sheetId: string, columnName: string, row: int, value: Value,
                            order: seq<string>, isDouble: string -> bool)
    requires RegistryInv(reg)
    requires sheetId in reg ==> Enumerates(order, reg[sheetId].cells.Keys + {CellKey(columnName, row)})
    ensures RegistryInv(SetCellValue(reg, sheetId, columnName, row, value, order, isDouble).0)
    ensures var r := SetCellValue(reg, sheetId, columnName, row, value, order, isDouble);
            r.1.Ok? ==>
              var x := CellKey(columnName, row);
              var after := reg[sheetId].cells[x := r.1.value];
              r.0[sheetId].cells == SetValues(after, Dependents(Links(after), x), r.1.value.value)
  {
    var r := SetCellValue(reg, sheetId, columnName, row, value, order, isDouble);
    if r.1.Ok? {
      var sheet := reg[sheetId];
      var column := ColumnByName(sheet.columns, columnName).value;
      var c := PrepareCell(sheet.columns, sheet.cells, column, columnName, row, value, isDouble).value;
      SetCellValueStages(reg, sheetId, columnName, row, value, order, isDouble);
      CommitCorrect(sheet, c, order);
      var x := CellKey(columnName, row);
      var after := sheet.cells[x := c];
      assert x in Tree(Links(after), x);
      assert r.1.value == c;
      assert r.0[sheetId] == Commit(sheet, c, order);
      forall id | id in r.0 ensures r.0[id].id == id && SheetInv(r.0[id].cells) {
        if id != sheetId {
          assert r.0[id] == reg[id];
        }
      }
    }
  }

  /**
    What a write returns: for lookup text, a lookup cell carrying that text and the value stored
    at its referenced coordinate before the write; for any other value, a plain cell holding the
    value, which is accepted exactly when it passes type validation.
   */
  lemma SetCellValueResult(reg: Registry, sheetId: string, columnName: string, row: int, value: Value,
                           order: seq<string>, isDouble: string -> bool)
    requires RegistryInv(reg)
    requires sheetId in reg ==> Enumerates(order, reg[sheetId].cells.Keys + {CellKey(columnName, row)})
    ensures var r := SetCellValue(reg, sheetId, columnName, row, value, order, isDouble);
            r.1.Ok? && IsLookupText(value) ==>
              && HasReference(r.1.value) && r.1.value.lookupFunction == Some(value.s)
              && r.1.value.value == ValueAt(reg[sheetId].cells, RefKey(r.1.value))
    ensures var r := SetCellValue(reg, sheetId, columnName, row, value, order, isDouble);
            r.1.Ok? && !IsLookupText(value) ==> r.1.value == NewCell(columnName, row, value)
    ensures sheetId in reg && ColumnByName(reg[sheetId].columns, columnName).Some? && !IsLookupText(value) ==>
              var column := ColumnByName(reg[sheetId].columns, columnName).value;
              (SetCellValue(reg, sheetId, columnName, row, value, order, isDouble).1.Ok?
               <==> ValidateValueType(column, value, isDouble).Pass?)
  {
    var r := SetCellValue(reg, sheetId, columnName, row, value, order, isDouble);
    if sheetId in reg && ColumnByName(reg[sheetId].columns, columnName).Some? {
      var sheet := reg[sheetId];
      var column := ColumnByName(sheet.columns, columnName).value;
      var prepared := PrepareCell(sheet.columns, sheet.cells, column, columnName, row, value, isDouble);
      SetCellValueStages(reg, sheetId, columnName, row, value, order, isDouble);
      if prepared.Ok? && CheckForCycles(sheet.cells, prepared.value).Pass? {
        var c := prepared.value;
        CommitCorrect(sheet, c, order);
        var x := CellKey(columnName, row);
        assert x in Tree(Links(sheet.cells[x := c]), x);
        assert r.1.value == c;
      }
    }
  }

  /**
    For a lookup written to an existing column of an existing sheet that keeps the invariant, once
    the lookup text resolves: the write is rejected as a self-reference exactly when it names its
    own coordinate, as a cycle exactly when the referenced chain leads back to the written
    coordinate, and succeeds otherwise.
   */
  lemma LookupWriteOutcome(reg: Registry, sheetId: string, columnName: string, row: int, text: string,
                           order: seq<string>, isDouble: string -> bool)
    requires RegistryInv(reg) && sheetId in reg
    requires ColumnByName(reg[sheetId].columns, columnName).Some?
    requires StartsWith(text, Prefix)
    requires ProcessLookup(reg[sheetId].columns, reg[sheetId].cells, NewCell(columnName, row, Str(text)),
                           ColumnByName(reg[sheetId].columns, columnName).value, text).Ok?
    ensures var c := ProcessLookup(reg[sheetId].columns, reg[sheetId].cells, NewCell(columnName, row, Str(text)),
                                   ColumnByName(reg[sheetId].columns, columnName).value, text).value;
            var x := CellKey(columnName, row);
            var r := SetCellValue(reg, sheetId, columnName, row, Str(text), order, isDouble);
            && (r.1 == Err(SelfReferenceCycle) <==> RefKey(c) == x)
            && (r.1 == Err(ReferenceCycle) <==> RefKey(c) != x && Reaches(Links(reg[sheetId].cells), RefKey(c), x))
            && (r.1.Ok? <==> RefKey(c) != x && !Reaches(Links(reg[sheetId].cells), RefKey(c), x))
  {
    var sheet := reg[sheetId];
    var c := ProcessLookup(sheet.columns, sheet.cells, NewCell(columnName, row, Str(text)),
                           ColumnByName(sheet.columns, columnName).value, text).value;
    SetCellValueStages(reg, sheetId, columnName, row, Str(text), order, isDouble);
    CheckForCyclesExact(sheet.cells, c);
  }

  /**
    In a store without lookup cells, a literal value that passes validation is simply upserted as a
    plain cell: no other cell changes, no lookup cell appears, and the invariant is kept.
   */
  lemma LiteralWriteUpserts(reg: Registry, sheetId: string, columnName: string, row: int, value: Value,
                            order: seq<string>, isDouble: string -> bool)
    requires RegistryInv(reg) && sheetId in reg && Links(reg[sheetId].cells) == map[]
    requires ColumnByName(reg[sheetId].columns, columnName).Some? && !IsLookupText(value)
    requires ValidateValueType(ColumnByName(reg[sheetId].columns, columnName).value, value, isDouble).Pass?
    requires Enumerates(order, reg[sheetId].cells.Keys + {CellKey(columnName, row)})
    ensures var r := SetCellValue(reg, sheetId, columnName, row, value, order, isDouble);
            var cells := reg[sheetId].cells[CellKey(columnName, row) := NewCell(columnName, row, value)];
            && r.1 == Ok(NewCell(columnName, row, value))
            && r.0 == reg[sheetId := reg[sheetId].(cells := cells)]
            && Links(cells) == map[]
            && RegistryInv(r.0)
  {
    var r := SetCellValue(reg, sheetId, columnName, row, value, order, isDouble);
    var x := CellKey(columnName, row);
    var after := reg[sheetId].cells[x := NewCell(columnName, row, value)];
    SetCellValueResult(reg, sheetId, columnName, row, value, order, isDouble);
    SetCellValueCorrect(reg, sheetId, columnName, row, value, order, isDouble);
    PlainUpsertHasNoLinks(reg[sheetId].cells, x, NewCell(columnName, row, value));
    SheetUpdated(reg, r.0, sheetId, after);
  }

  /** Upserting a plain cell into a store without lookup cells propagates to no other cell. */
  lemma PlainUpsertHasNoLinks(cells: Store, x: string, c: Cell)
    requires Links(cells) == map[] && !IsLookup(c)
    ensures Links(cells[x := c]) == map[]
    ensures SetValues(cells[x := c], Dependents(Links(cells[x := c]), x), c.value) == cells[x := c]
  {
    var after := cells[x := c];
    assert Links(after) == map[];
    assert Dependents(Links(after), x) == {};
    SetValuesNone(after, c.value);
  }

  /** A registry that differs only in one sheet's store is the registry with that store replaced. */
  lemma SheetUpdated(reg: Registry, next: Registry, sheetId: string, cells: Store)
    requires sheetId in reg && next.Keys == reg.Keys
    requires forall id :: id in reg && id != sheetId ==> next[id] == reg[id]
    requires next[sheetId].id == reg[sheetId].id && next[sheetId].columns == reg[sheetId].columns
    requires next[sheetId].cells == cells
    ensures next == reg[sheetId := reg[sheetId].(cells := cells)]
  {
  }

  /** Propagating a value a second time from the same key changes nothing. */
  lemma PropagateTwice(after: Store, x: string, v: Value, once: Store)
    requires once == SetValues(after, Dependents(Links(after), x), v)
    ensures SetValues(once, Dependents(Links(once), x), v) == once
  {
    var d := Dependents(Links(after), x);
    SameShapeLinks(after, once);
    SetValuesCompose(after, d, d, v);
    assert d + d == d;
  }

  /** A rejected write does not look at the iteration order. */
  lemma RejectedWriteIgnoresOrder(reg: Registry, sheetId: string, columnName: string, row: int, value: Value,
                                  order: seq<string>, order2: seq<string>, isDouble: string -> bool)
    requires SetCellValue(reg, sheetId, columnName, row, value, order, isDouble).1.Err?
    ensures SetCellValue(reg, sheetId, columnName, row, value, order2, isDouble)
            == SetCellValue(reg, sheetId, columnName, row, value, order, isDouble)
  {
  }

  /**
    Writing a literal that is already stored at its coordinate, with every dependent already
    holding it, returns that cell and leaves the registry as it is.
   */
  lemma WriteAtFixedPoint(reg: Registry, sheetId: string, columnName: string, row: int, value: Value,
                          order: seq<string>, isDouble: string -> bool)
    requires RegistryInv(reg) && sheetId in reg && !IsLookupText(value)
    requires ColumnByName(reg[sheetId].columns, columnName).Some?
    requires ValidateValueType(ColumnByName(reg[sheetId].columns, columnName).value, value, isDouble).Pass?
    requires var cells := reg[sheetId].cells;
             && CellKey(columnName, row) in cells && cells[CellKey(columnName, row)] == NewCell(columnName, row, value)
             && SetValues(cells, Dependents(Links(cells), CellKey(columnName, row)), value) == cells
             && Enumerates(order, cells.Keys)
    ensures SetCellValue(reg, sheetId, columnName, row, value, order, isDouble) == (reg, Ok(NewCell(columnName, row, value)))
  {
    var x := CellKey(columnName, row);
    var cells := reg[sheetId].cells;
    assert cells.Keys + {x} == cells.Keys;
    assert cells[x := NewCell(columnName, row, value)] == cells;
    SetCellValueResult(reg, sheetId, columnName, row, value, order, isDouble);
    SetCellValueCorrect(reg, sheetId, columnName, row, value, order, isDouble);
    var r := SetCellValue(reg, sheetId, columnName, row, value, order, isDouble);
    SheetUpdated(reg, r.0, sheetId, cells);
    assert reg[sheetId := reg[sheetId].(cells := cells)] == reg;
  }

  /**
    Writing the same literal twice is the same as writing it once: the second write returns the
    same cell and leaves the registry as the first one left it, whether the first write succeeded
    or was rejected, and whatever iteration order either write sees.
   */
  lemma LiteralWriteIdempotent(reg: Registry, sheetId: string, columnName: string, row: int, value: Value,
                               order: seq<string>, order2: seq<string>, isDouble: string -> bool)
    requires RegistryInv(reg) && !IsLookupText(value)
    requires sheetId in reg ==> Enumerates(order, reg[sheetId].cells.Keys + {CellKey(columnName, row)})
    requires sheetId in reg ==> Enumerates(order2, reg[sheetId].cells.Keys + {CellKey(columnName, row)})
    ensures var r := SetCellValue(reg, sheetId, columnName, row, value, order, isDouble);
            SetCellValue(r.0, sheetId, columnName, row, value, order2, isDouble) == r
  {
    var r := SetCellValue(reg, sheetId, columnName, row, value, order, isDouble);
    if r.1.Ok? {
      var x := CellKey(columnName, row);
      var after := reg[sheetId].cells[x := NewCell(columnName, row, value)];
      SetCellValueResult(reg, sheetId, columnName, row, value, order, isDouble);
      SetCellValueCorrect(reg, sheetId, columnName, row, value, order, isDouble);
      PropagateTwice(after, x, value, r.0[sheetId].cells);
      WriteAtFixedPoint(r.0, sheetId, columnName, row, value, order2, isDouble);
    } else {
      RejectedWriteIgnoresOrder(reg, sheetId, columnName, row, value, order, order2, isDouble);
    }
  }
}

=== FILE: sheet.dfy ===
/**
  A sheet: an id, an ordered schema of (name, type) columns and a store of cells keyed by the
  text `column + "," + row`, exactly as the Java map is keyed.
 */
module Sheets {
  import opened Wrappers
  import opened Text
  import opened Cells

  /** A schema column. The type is free text; validation lower-cases it, lookups compare it exactly. */
  datatype Column = Column(name: string, typeName: string)

  /** The cell store: cell key to cell. */
  type Store = map<string, Cell>

  datatype Sheet = Sheet(id: string, columns: seq<Column>, cells: Store)

  /** `generateCellKey`: the column name, a comma, then the row's decimal text. */
  function CellKey(column: string, row: int): string {
    column + "," + IntToString(row)
  }

  /** Two texts glued by a comma split back uniquely when the right-hand parts hold no comma. */
  lemma CommaJoinInjective(a1: string, s1: string, a2: string, s2: string)
    requires ',' !in s1 && ',' !in s2
    ensures a1 + "," + s1 == a2 + "," + s2 <==> a1 == a2 && s1 == s2
  {
    var w1 := a1 + "," + s1;
    var w2 := a2 + "," + s2;
    if |a1| == |a2| {
      if a1 != a2 {
        var i :| 0 <= i < |a1| && a1[i] != a2[i];
        assert w1[i] == a1[i] && w2[i] == a2[i];
      } else if s1 != s2 {
        assert w1[|a1| + 1..] == s1 && w2[|a2| + 1..] == s2;
      }
    } else if |w1| == |w2| {
      if |a1| < |a2| {
        assert w2[|a2|] == ',';
        assert w1[|a2|] == s1[|a2| - |a1| - 1];
      } else {
        assert w1[|a1|] == ',';
        assert w2[|a1|] == s2[|a1| - |a2| - 1];
      }
    }
  }

  /**
    The cell key identifies its coordinate: equal keys mean equal column and row. This holds for
    every column name, commas included, because the row's text never contains a comma.
   */
  lemma CellKeyInjective(c1: string, r1: int, c2: string, r2: int)
    ensures CellKey(c1, r1) == CellKey(c2, r2) <==> c1 == c2 && r1 == r2
  {
    IntToStringHasNoComma(r1);
    IntToStringHasNoComma(r2);
    CommaJoinInjective(c1, IntToString(r1), c2, IntToString(r2));
    IntToStringInjective(r1, r2);
  }

  /** `getCell`: the cell stored under the coordinate's key, if any. */
  function CellAt(cells: Store, column: string, row: int): Option<Cell> {
    var key := CellKey(column, row);
    if key in cells then Some(cells[key]) else None
  }

  /** The value a lookup of this coordinate reads: the stored value, or null for a missing cell. */
  function ValueAt(cells: Store, key: string): Value {
    if key in cells then cells[key].value else Null
  }

  /**
    The store invariant kept by the only writer (AddCell): every entry sits under its own
    coordinate's key, and every lookup cell carries both referenced coordinates.
   */
  predicate WellFormed(cells: Store) {
    forall k :: k in cells ==>
      && k == CellKey(cells[k].column, cells[k].row)
      && (IsLookup(cells[k]) ==> HasReference(cells[k]))
  }

  /**
    `order` lists every key of `keys` exactly once. The hash map's iteration order is not
    modelled; operations that walk the store take such an order as a parameter.
   */
  predicate Enumerates(order: seq<string>, keys: set<string>) {
    && (forall i :: 0 <= i < |order| ==> order[i] in keys)
    && (forall k :: k in keys ==> k in order)
    && (forall i, j :: 0 <= i < j < |order| ==> order[i] != order[j])
  }

  /** `new Sheet(id, columns)`: the given id and schema over an empty store. */
  function NewSheet(id: string, columns: seq<Column>): (s: Sheet)
    ensures s.id == id && s.columns == columns
    ensures forall column: string, row: int :: CellAt(s.cells, column, row) == None
    ensures WellFormed(s.cells)
  {
    Sheet(id, columns, map[])
  }

  /**
    `addCell`: upsert under the cell's own key. Reading that coordinate back gives the cell,
    and every other coordinate reads exactly as before.
   */
  function AddCell(s: Sheet, c: Cell): (r: Sheet)
    ensures r.id == s.id && r.columns == s.columns
    ensures r.cells.Keys == s.cells.Keys + {CellKey(c.column, c.row)}
    ensures CellAt(r.cells, c.column, c.row) == Some(c)
    ensures forall column: string, row: int {:trigger CellAt(r.cells, column, row)} ::
      (column != c.column || row != c.row) ==> CellAt(r.cells, column, row) == CellAt(s.cells, column, row)
  {
    var r := s.(cells := s.cells[CellKey(c.column, c.row) := c]);
    forall column: string, row: int | column != c.column || row != c.row
      ensures CellAt(r.cells, column, row) == CellAt(s.cells, column, row)
    {
      CellKeyInjective(column, row, c.column, c.row);
    }
    r
  }

  /** Adding a cell to a well-formed store keeps it well-formed when the cell carries its coordinates. */
  lemma AddCellWellFormed(s: Sheet, c: Cell)
    requires WellFormed(s.cells)
    requires IsLookup(c) ==> HasReference(c)
    ensures WellFormed(AddCell(s, c).cells)
  {
  }

  /**
    `getColumnByName`: the first column of the schema whose name is equal, or None when no
    column has that name.
   */
  function ColumnByName(columns: seq<Column>, name: string): (r: Option<Column>)
    ensures r.None? <==> forall i :: 0 <= i < |columns| ==> columns[i].name != name
    ensures r.Some? ==> exists i :: (0 <= i < |columns| && columns[i] == r.value && r.value.name == name
                                     && forall j :: 0 <= j < i ==> columns[j].name != name)
  {
    if columns == [] then None
    else if columns[0].name == name then Some(columns[0])
    else
      var r := ColumnByName(columns[1..], name);
      assert forall i :: 1 <= i < |columns| ==> columns[i] == columns[1..][i - 1];
      r
  }
}

=== FILE: text.dfy ===
/**
  Character classes and the few pieces of java.lang text handling the engine relies on:
  Integer.toString, Integer.parseInt, ASCII lower-casing and joining with a separator.
  Only ASCII digits are recognised (see README, "Left out").
 */
module Text {
  import opened Wrappers

  /** `[A-Za-z]` in a Java regular expression. */
  predicate IsAsciiLetter(c: char) {
    'A' <= c <= 'Z' || 'a' <= c <= 'z'
  }

  /** `\d` in a Java regular expression (ASCII digits only by default). */
  predicate IsAsciiDigit(c: char) {
    '0' <= c <= '9'
  }

  /** `\s` in a Java regular expression: space, tab, newline, vertical tab, form feed, carriage return. */
  predicate IsRegexSpace(c: char) {
    c == ' ' || c == '\t' || c == '\n' || c == '\U{0B}' || c == '\U{0C}' || c == '\r'
  }

  predicate AllDigits(s: string) {
    forall i :: 0 <= i < |s| ==> IsAsciiDigit(s[i])
  }

  /** The signed 32-bit range of a Java `int`. */
  predicate IsInt32(n: int) {
    -0x8000_0000 <= n < 0x8000_0000
  }

  /** A value of Java's `int` (and of a java.lang.Integer). */
  type Int32 = n: int | IsInt32(n)

  function DigitChar(d: int): (c: char)
    requires 0 <= d < 10
    ensures IsAsciiDigit(c) && c as int - '0' as int == d
  {
    ('0' as int + d) as char
  }

  /** The numeric value of a non-empty run of decimal digits, most significant first. */
  function DigitsValue(s: string): nat
    requires AllDigits(s)
  {
    if s == [] then 0
    else DigitsValue(s[..|s| - 1]) * 10 + (s[|s| - 1] as int - '0' as int)
  }

  /** Decimal text of a natural number without leading zeros. */
  function NatToString(n: nat): (s: string)
    ensures |s| > 0 && AllDigits(s)
    decreases n
  {
    if n < 10 then [DigitChar(n)]
    else NatToString(n / 10) + [DigitChar(n % 10)]
  }

  /** Integer.toString: a minus sign for negative numbers, then the decimal digits of the magnitude. */
  function IntToString(i: int): string {
    (if i < 0 then "-" else "") + NatToString(if i < 0 then -i else i)
  }

  /** Reading the digits written by NatToString gives the number back. */
  lemma {:induction false} NatToStringValue(n: nat)
    ensures DigitsValue(NatToString(n)) == n
  {
    if n >= 10 {
      var prefix := NatToString(n / 10);
      var s := prefix + [DigitChar(n % 10)];
      assert s[..|s| - 1] == prefix;
      NatToStringValue(n / 10);
    }
  }

  /** The text of an integer is made of an optional minus sign and digits, so it never holds a comma. */
  lemma IntToStringHasNoComma(i: int)
    ensures ',' !in IntToString(i)
  {
    var digits := if i < 0 then NatToString(-i) else NatToString(i);
    assert forall k :: 0 <= k < |digits| ==> digits[k] != ',';
  }

  /** Integer.toString is injective: two integers have the same text exactly when they are equal. */
  lemma IntToStringInjective(a: int, b: int)
    ensures IntToString(a) == IntToString(b) <==> a == b
  {
    if a != b {
      if a < 0 && b < 0 {
        NatToStringValue(-a);
        NatToStringValue(-b);
        assert IntToString(a)[1..] != IntToString(b)[1..];
      } else if a >= 0 && b >= 0 {
        assert IntToString(a) == NatToString(a) && IntToString(b) == NatToString(b);
        NatToStringValue(a);
        NatToStringValue(b);
      } else if a < 0 {
        assert IntToString(a)[0] == '-' && IsAsciiDigit(IntToString(b)[0]);
      } else {
        assert IntToString(b)[0] == '-' && IsAsciiDigit(IntToString(a)[0]);
      }
    }
  }

  /**
    Integer.parseInt(s) in radix 10: an optional leading '+' or '-', then at least one digit,
    and a value inside the 32-bit range; anything else raises NumberFormatException (None).
   */
  function ParseInt(s: string): (r: Option<int>)
    ensures r.Some? ==> IsInt32(r.value)
  {
    if |s| == 0 then None
    else
      var negative := s[0] == '-';
      var body := if s[0] == '-' || s[0] == '+' then s[1..] else s;
      if |body| == 0 || !AllDigits(body) then None
      else
        var magnitude: int := DigitsValue(body);
        var v: int := if negative then -magnitude else magnitude;
        if IsInt32(v) then Some(v) else None
  }

  /** Integer.parseInt reads back what Integer.toString wrote, for every Java int. */
  lemma ParseIntOfIntToString(i: int)
    requires IsInt32(i)
    ensures ParseInt(IntToString(i)) == Some(i)
  {
    if i < 0 {
      var digits := NatToString(-i);
      assert IntToString(i) == "-" + digits;
      NatToStringValue(-i);
      ParseIntNegative(digits);
    } else {
      var digits := NatToString(i);
      assert IntToString(i) == digits;
      NatToStringValue(i);
      ParseIntUnsigned(digits);
    }
  }

  lemma ParseIntNegative(digits: string)
    requires |digits| > 0 && AllDigits(digits) && IsInt32(-(DigitsValue(digits) as int))
    ensures ParseInt("-" + digits) == Some(-(DigitsValue(digits) as int))
  {
    assert ("-" + digits)[1..] == digits;
  }

  lemma ParseIntUnsigned(digits: string)
    requires |digits| > 0 && AllDigits(digits) && IsInt32(DigitsValue(digits))
    ensures ParseInt(digits) == Some(DigitsValue(digits))
  {
    assert IsAsciiDigit(digits[0]);
  }

  /** Java's String.toLowerCase restricted to ASCII upper-case letters. */
  function ToLowerAscii(s: string): (r: string)
    ensures |r| == |s|
    ensures forall i :: 0 <= i < |s| && 'A' <= s[i] <= 'Z' ==> r[i] as int == s[i] as int + 32
    ensures forall i :: 0 <= i < |s| && !('A' <= s[i] <= 'Z') ==> r[i] == s[i]
  {
    if s == [] then []
    else
      var c := s[0];
      var lower := if 'A' <= c <= 'Z' then (c as int + 32) as char else c;
      [lower] + ToLowerAscii(s[1..])
  }

  /** String.join(sep, parts). */
  function Join(parts: seq<string>, sep: string): string {
    if |parts| == 0 then ""
    else if |parts| == 1 then parts[0]
    else parts[0] + sep + Join(parts[1..], sep)
  }

  /** String.startsWith. */
  predicate StartsWith(s: string, prefix: string) {
    |prefix| <= |s| && s[..|prefix|] == prefix
  }
}

=== FILE: validation.dfy ===
/**
  The literal type validator: checks a literal value against a column's declared type.
  The type text is lower-cased first, so "INT" and "int" validate alike.
 */
module Validation {
  import opened Wrappers
  import opened Text
  import opened Cells
  import opened Sheets
  import opened Errors

  /**
    The check a non-Integer Number passes for an int column: intValue() equals doubleValue(),
    that is, the number is whole and inside the 32-bit range (outside it intValue saturates for a
    Double and wraps for a Long, so the two never agree there).
   */
  predicate IsIntegral(x: real) {
    x == x.Floor as real && IsInt32(x.Floor)
  }

  /** A value that denotes some Java int: an Integer, a whole Number in range, or parseable text. */
  ghost predicate DenotesInt(v: Value) {
    || v.Int?
    || (exists n: int :: IsInt32(n) && v == Num(n as real))
    || (v.Str? && ParseInt(v.s).Some?)
  }

  /**
    `validateValueType`: null passes for every type; "boolean" needs a Boolean; "int" needs a value
    denoting a 32-bit integer; "double" needs a Number or text `isDouble` accepts (the verdict of
    Double.parseDouble); "string" takes anything; every other type text is unsupported.
   */
  function ValidateValueType(column: Column, value: Value, isDouble: string -> bool): (r: Outcome<Error>)
    ensures value.Null? ==> r.Pass?
    ensures r.Fail? ==> r.error in {ExpectedBoolean, ExpectedInteger, ExpectedDouble, UnsupportedColumnType}
    ensures !value.Null? ==> var kind := ToLowerAscii(column.typeName);
      && (kind == "boolean" ==> (r.Pass? <==> value.Bool?))
      && (kind == "int" ==> (r.Pass? <==> DenotesInt(value)))
      && (kind == "double" ==> (r.Pass? <==> value.Int? || value.Num? || (value.Str? && isDouble(value.s))))
      && (kind == "string" ==> r.Pass?)
      && (kind !in {"boolean", "int", "double", "string"} <==> r == Fail(UnsupportedColumnType))
  {
    if value.Null? then Pass
    else
      var kind := ToLowerAscii(column.typeName);
      if kind == "boolean" then
        if value.Bool? then Pass else Fail(ExpectedBoolean)
      else if kind == "int" then
        match value
        case Int(_) => Pass
        case Num(x) =>
          if IsIntegral(x) then Pass else Fail(ExpectedInteger)
        case Str(s) => if ParseInt(s).Some? then Pass else Fail(ExpectedInteger)
        case _ => Fail(ExpectedInteger)
      else if kind == "double" then
        match value
        case Int(_) => Pass
        case Num(_) => Pass
        case Str(s) => if isDouble(s) then Pass else Fail(ExpectedDouble)
        case _ => Fail(ExpectedDouble)
      else if kind == "string" then Pass
      else Fail(UnsupportedColumnType)
  }
}

=== FILE: wrappers.dfy ===
/** Option and Result datatypes used for Java's nullable returns and thrown exceptions. */
module Wrappers {

  /** A possibly absent value: Java's `null` return. */
  datatype Option<+T> = None | Some(value: T)

  /** The outcome of an operation that may throw: a value or the reason it was rejected. */
  datatype Result<+T, +E> = Ok(value: T) | Err(error: E)

  /** The outcome of a check that returns nothing on success (a `void` Java method that may throw). */
  datatype Outcome<+E> = Pass | Fail(error: E)
}
